=== FILE: README.md ===
# 0x88 chess engine core, in Dafny

This project models the engine of `javascripts/0x88.js` as pure functions over
an immutable position record, and proves properties of that model. The engine
keeps the board in a 128-slot array: the high nibble of an index is the rank,
the low nibble is the file, and `index & 0x88` is zero exactly on the 64 real
squares.

The modules follow the parts of the program:

- `Squares` covers `has_index`, `get_index` (numeric and by name) and
  `get_san`, plus the square scan that `moves()` performs.
- `Pieces` covers the colour bit, the `pieces` code table, `get_color` and
  `get_piece`.
- `Position` covers the array, the `en_passant` field with its three
  JavaScript values, the castling mask, the history snapshots,
  `position_piece`, `piece_at` and `reset`.
- `MoveGen` covers `move_generator`, `pawn_moves`, `piece_moves` and the
  pseudo-legal scan of `moves()`.
- `Legality` covers `is_attacked` and the trial-and-undo filter of `moves()`.
- `MoveObject` covers `Move.do` and `Move.undo`. `MoveAsWritten` is the same
  pair with the closure variable exactly as the source declares it (see
  Findings).
- `Game` covers `state()`, `Board.do`, `Board.undo` and `perft`.
- `Fen` covers `fen()`, `load` and the constructor.
- `Text` covers the JavaScript string operations these use: `split`, `join`,
  `String(n)` and `parseInt`.

The model keeps the program's quirks as they are:

- En passant never removes a pawn: `Move.do` tests `this.flag`, not
  `this.flags`.
- `Board.undo` restores a snapshot and leaves the move object marked done.
- `is_attacked` takes the attacking colour from the piece on the square. On
  an empty square it takes WHITE.
- The legality filter guards the last own king the scan finds.
- `state()` reports check mate whenever no move is left.
- A `-` en-passant field is stored as `false` and written back as `a1`.

## Model

| member | source | states |
|---|---|---|
| Squares.HasIndexMask | javascripts/0x88.js:408-410 | For every low byte, the arithmetic reading of `has_index` agrees with the mask test `b & 0x88 == 0`. JavaScript's `&` sees only that byte of the number for bits 3 and 7. |
| Squares.HasIndexInReach | javascripts/0x88.js:408-410 | On every index from -128 to 255 (the engine reaches -33 to 152), `has_index` holds exactly when `0 <= i < 128` and the file nibble is below 8. |
| Squares.GetIndex | javascripts/0x88.js:355-363 | `row << 4 \| column` keeps the row in the high part and the column in the low nibble. For a row below 8 it is on the board exactly when the column is below 8. |
| Squares.IndexOf | javascripts/0x88.js:360 | `indexOf` is -1 exactly when the character is absent; otherwise it is the character's first position. |
| Squares.GetIndexSan | javascripts/0x88.js:355-362 | The index of a square name is on the board. Its rank is the digit minus one and its file is the position of the lower-cased letter in "abcdefgh". |
| Squares.GetSan | javascripts/0x88.js:369-374 | `get_san` yields a name exactly when `has_index` holds, and is undefined otherwise. |
| Squares.GetSanWraps | javascripts/0x88.js:370 | `index >> 4` acts on the 32-bit form of the index, so `get_san(2 ** 32)` is "a1". |
| Squares.SanOfSquare | javascripts/0x88.js:369-374 | The square on rank `q` and file `f` is named by file letter `f` followed by the digit `q + 1`. |
| Squares.SanRoundTrip | javascripts/0x88.js:355-374 | `get_index(get_san(i)) == i` for every on-board index, and the name is a two-character square name. |
| Squares.NameRoundTrip | javascripts/0x88.js:355-374 | `get_san(get_index(s))` gives back the name lower-cased and cut to its first two characters. |
| Squares.SanChars | javascripts/0x88.js:369-374 | A square's name is a file letter and a rank digit 1-8, with no space. |
| Squares.FileOfIndex | javascripts/0x88.js:370 | On every low byte, `index & 7` is the index modulo 8 (the file) and `index >> 4` is the index divided by 16 (the rank less one). |
| Squares.FileLetterIndex | javascripts/0x88.js:360 | Each file letter is lower case and is found at its own position in "abcdefgh". |
| Squares.ScanOrderSquares | javascripts/0x88.js:462-467 | The scan from `i` visits only board squares, all at or above `i`. |
| Squares.ScanOrderCovers | javascripts/0x88.js:462-467 | The scan from `i` visits every board square from `i` up to 127. |
| Squares.ScanOrderIncreasing | javascripts/0x88.js:462-467 | The scan visits squares in strictly increasing order. |
| Squares.ScanOrderLength | javascripts/0x88.js:462-467 | From file `f` of rank `q`, the scan visits `8 * (8 - q) - f` squares. |
| Squares.SixtyFourSquares | javascripts/0x88.js:408-410 | The mask picks exactly 64 of the 128 slots. The scan of `moves()` visits each of them once, in increasing order, and visits nothing else. |
| Text.Split | javascripts/0x88.js:253-254 | `split` gives at least one piece and no piece holds the separator. Joining the pieces gives the text back. |
| Text.SplitJoin | javascripts/0x88.js:324-330 | Splitting a join gives the fields back when no field holds the separator. |
| Text.NatToString | javascripts/0x88.js:329 | `String(n)` is a non-empty run of decimal digits, without a leading zero, whose value is `n`. |
| Text.ToInt32 | javascripts/0x88.js:370 | The operand of `&`, `>>` and `^` is the signed 32-bit value equal to the number modulo 2^32, and is the number itself when it already fits. |
| Text.LeadingDigits | javascripts/0x88.js:289-290 | After the white space, the sign and any hex prefix, `parseInt` reads the longest prefix of decimal digits and stops at the first other character. |
| Text.TrimStart | javascripts/0x88.js:289-290 | `parseInt` first drops the leading ECMAScript white space (tab to carriage return, space, no-break space, the Unicode space separators, line and paragraph separators, BOM), all of it and nothing after it. |
| Text.ParseUnsigned | javascripts/0x88.js:289-290 | After the sign, the number is NaN exactly when a "0x"/"0X" prefix has no hex digit after it or, without that prefix, no decimal digit comes first. |
| Text.LeadingHexDigits | javascripts/0x88.js:289-290 | After a "0x" prefix, `parseInt` reads the longest prefix of hex digits and stops at the first other character. |
| Text.ParseIntDigitStart | javascripts/0x88.js:289-290 | For text that starts with a decimal digit, `parseInt` skips nothing, gives NaN exactly for a "0x"/"0X" prefix with no hex digit after it, never gives a negative number, and without a hex prefix gives the value of the leading digits. |
| Text.ParseIntNoDigit | javascripts/0x88.js:289-290 | Text with no decimal digit anywhere, the empty text included, reads as NaN. |
| Text.ParseIntSign | javascripts/0x88.js:289-290 | One "-" before a number that starts with a digit negates it, and one "+" changes nothing. |
| Text.ParseIntSkipsSpace | javascripts/0x88.js:289-290 | Any run of white space before the number changes nothing. |
| Text.ParseIntHexPrefix | javascripts/0x88.js:289-290 | After a "0x"/"0X" prefix the number is the value of the leading hex digits, and NaN when there are none. |
| Text.ParseIntDecimal | javascripts/0x88.js:289-290 | A run of decimal digits followed by a non-digit reads as the run's value, unless the run is a lone "0" that the next character turns into a hex prefix. |
| Text.ParseIntHex | javascripts/0x88.js:289-290 | "0x10" reads as 16, "0X1f" as 31, and a bare "0x" as NaN. |
| Text.ParseIntNatToString | javascripts/0x88.js:289-290 | `parseInt(String(n)) == n` for every natural below 2^53. |
| Text.ParseIntIntToString | javascripts/0x88.js:289-290 | `parseInt(String(n)) == n` for every integer below 2^53 in magnitude, negative ones included. |
| Pieces.FlipColorBit | javascripts/0x88.js:181 | `x ^ 0x80` gives a signed 32-bit result. It flips bit 7 of the number's low byte and keeps bits 0-6 and bits 8-31 of its 32-bit form. |
| Pieces.FlipColorBitWraps | javascripts/0x88.js:181 | Bits above 31 are dropped: `(2 ** 31) ^ 0x80` is -2147483520, and `(2 ** 32 + 0x80) ^ 0x80` is 0. |
| Pieces.OpponentIsXor | javascripts/0x88.js:181 | `turn ^= 0x80` swaps WHITE and BLACK. Swapping twice gives the colour back. |
| Pieces.GetColor | javascripts/0x88.js:381-386 | `get_color` is undefined exactly for the falsy code 0. Otherwise it is `code & 0x80`: WHITE exactly when bit 7 is set, BLACK otherwise. |
| Pieces.GetPiece | javascripts/0x88.js:393-402 | `get_piece` is defined exactly for codes in the table, and returns a key holding that code. |
| Pieces.FindCode | javascripts/0x88.js:395-400 | The key loop from entry `from` on finds a key exactly when some later entry holds the code. |
| Pieces.FindCodeAt | javascripts/0x88.js:395-400 | The key loop returns the first key holding the code. |
| Pieces.LookupLetter | javascripts/0x88.js:271-272 | `bit in pieces` holds exactly for the twelve keys. |
| Pieces.FindLetter | javascripts/0x88.js:271-272 | The lookup from entry `from` on finds a code exactly when some later key is the letter. |
| Pieces.FindLetterAt | javascripts/0x88.js:271-272 | The lookup returns the code of the first key equal to the letter. |
| Pieces.TableIsCodes | javascripts/0x88.js:75-88 | The table holds the twelve pieces, each under its letter with its colour bit plus kind bit. |
| Pieces.UppercaseIsWhite | javascripts/0x88.js:74-88 | Every uppercase key has the WHITE bit and every lowercase key lacks it. |
| Pieces.GetPieceOfTable | javascripts/0x88.js:393-402 | `get_piece(pieces[k]) == k` for every key, because no two keys share a code. |
| Pieces.LookupLetterOfTable | javascripts/0x88.js:271-272 | `pieces[k]` is the table's code for every key, because no two keys are equal. |
| Pieces.CodeReadsBack | javascripts/0x88.js:381-402 | A piece's code gives back its colour, its letter and itself. Its kind is the king exactly when `code & 0x3F` is `pieces['k']`. |
| Pieces.CodeBits | javascripts/0x88.js:488 | A code's colour reads back from bit 7, and `code & 0x3F` equals `pieces['k']` exactly for a king of either colour. |
| Pieces.LetterReadsBack | javascripts/0x88.js:271-273 | A character is a key exactly when it names a piece. The key's code is that piece's code. |
| Position.NewArray | javascripts/0x88.js:337 | `new Array(128)` has 128 undefined slots. |
| Position.PieceAt | javascripts/0x88.js:416-421 | Inside the array `piece_at(i)` is `positions[i]`; off the array it is undefined. |
| Position.Place | javascripts/0x88.js:345-347 | `position_piece` writes one slot and leaves every other slot as it was. |
| Position.Reset | javascripts/0x88.js:336-343 | `reset` empties the board, gives WHITE the move, sets all four castling bits (0x0F), clears en passant to null, zeroes both clocks and keeps the history. |
| MoveGen.Offsets | javascripts/0x88.js:65-72 | Every offset of the table is a non-zero step of at most 33. |
| MoveGen.Ray | javascripts/0x88.js:579-593 | Each move of one offset's walk carries the moving piece, origin `index` and no flag. Its target is on the board and holds none of the player's pieces. A stepping piece emits at most one move per offset. |
| MoveGen.RaySteps | javascripts/0x88.js:581-588 | A walk's targets are consecutive steps of the offset from the origin. An empty walk means the first step leaves the board or meets an own piece. |
| MoveGen.RayThroughEmpty | javascripts/0x88.js:582-591 | A walk passes only through empty squares; only its last target may be occupied. |
| MoveGen.RayEmpty | javascripts/0x88.js:582-586 | A sliding walk is empty only when its first step leaves the board or meets an own piece. |
| MoveGen.RayStops | javascripts/0x88.js:582-591 | A sliding walk that ends on an empty square stops because the next step leaves the board or meets an own piece. |
| MoveGen.MoveGenerator | javascripts/0x88.js:574-595 | Every move has `from == index`, the piece standing there and no flag. Its target is on the board and not the player's. King and knight yield at most one move per offset. |
| MoveGen.PawnDiagonal | javascripts/0x88.js:547-559 | A diagonal emits its square exactly when the square holds an opposing piece or is an en-passant candidate. Only the candidate is flagged `EN_PASSANT`. |
| MoveGen.PawnPushes | javascripts/0x88.js:538-544 | The single push is emitted exactly when the square ahead is empty and on the board. The double push is emitted exactly when, in addition, the square two behind is off the board and the square two ahead is empty and on the board. |
| MoveGen.PawnMoves | javascripts/0x88.js:522-561 | A pawn has at most four moves, all from its square with its piece. Each unflagged target is inside the array and not the player's, and each flagged one is an en-passant candidate. |
| MoveGen.PawnPushTargets | javascripts/0x88.js:538-544 | `pawn_moves` targets the square ahead exactly when the single push is allowed, and the square two ahead exactly when the double push is allowed. |
| MoveGen.PushTarget | javascripts/0x88.js:522-561 | A square straight ahead is targeted by `pawn_moves` exactly when the pushes target it. |
| MoveGen.PawnDiagonalTargets | javascripts/0x88.js:546-559 | `pawn_moves` targets `forward ± 1` exactly when that square holds an opposing piece or `to - direction` equals a truthy `en_passant`. |
| MoveGen.PawnTargetSquares | javascripts/0x88.js:522-561 | A pawn targets only its two push squares and two diagonals. A flagged move is an en-passant candidate on a square without an opposing piece. |
| MoveGen.PieceMoves | javascripts/0x88.js:506-514 | `piece_moves` sends pawns to `pawn_moves` and everything else to `move_generator`. Only pawns produce flagged moves. |
| MoveGen.Gather | javascripts/0x88.js:462-479 | The scan collects, in scan order, only the moves of own pieces standing on scanned squares. |
| MoveGen.GatherMembership | javascripts/0x88.js:462-479 | A move is collected exactly when its origin is scanned, holds an own piece, and `piece_moves` produces the move there. |
| MoveGen.PseudoMoves | javascripts/0x88.js:456-483 | `moves(player, true)` yields only moves of the player's own pieces from board squares, with clean targets. |
| MoveGen.PseudoMembership | javascripts/0x88.js:456-483 | A move is pseudo-legal exactly when it is one of `piece_moves` of an own piece on its board origin. |
| MoveGen.PseudoTargets | javascripts/0x88.js:456-483 | With the en-passant field in reach, every pseudo-legal move addresses the array. With empty padding as well, every target is a board square. |
| MoveGen.LastKing | javascripts/0x88.js:474-476 | The remembered king square is the last own king in the scan: a king stands there and none stands later. |
| MoveGen.KingSquare | javascripts/0x88.js:462-476 | The filter's king square is the own king on the highest board index, or undefined when there is no own king. |
| MoveGen.LastKingIsHighest | javascripts/0x88.js:462-476 | The last king found by the scan is on the board, and no own king stands on a higher board square. |
| MoveObject.Apply | javascripts/0x88.js:609-616 | `do` moves the origin's piece to the target and empties the origin. No other slot changes, because the en-passant branch never fires. |
| MoveObject.Do | javascripts/0x88.js:607-619 | A pending `do` remembers the target's piece and applies the move. An applied one changes nothing. |
| MoveObject.Undo | javascripts/0x88.js:621-631 | An applied `undo` moves the target's piece back to the origin and puts the remembered capture on the target. A pending one changes nothing. |
| MoveObject.DoUndo | javascripts/0x88.js:607-631 | `undo` after `do` restores the array exactly, for every move inside the array, and the move is pending again. |
| MoveObject.Guarded | javascripts/0x88.js:607-631 | A second `do` changes nothing, and so does an `undo` without a `do`. |
| MoveAsWritten.Do | javascripts/0x88.js:597-619 | The source's `do`, whose `var to` shares storage with the `to` parameter, reads the capture through that shared variable. |
| MoveAsWritten.Undo | javascripts/0x88.js:621-631 | The source's `undo` writes the shared variable's piece back to the target. |
| MoveAsWritten.SamePositions | javascripts/0x88.js:597-631 | Both readings move the same pieces, and they agree on `undo` whenever the shared variable holds the real capture. |
| MoveAsWritten.FirstRoundTrip | javascripts/0x88.js:597-631 | The first `do`/`undo` of a fresh move object restores the array exactly. |
| MoveAsWritten.SecondRoundTripLosesCapture | javascripts/0x88.js:597-631 | Counterexample: reusing a move object for a second capture round trip loses the captured pawn. |
| MoveAsWritten.CorrectedSecondRoundTrip | javascripts/0x88.js:597-631 | With the capture in its own variable, both round trips restore the array exactly. |
| Legality.AttackerOf | javascripts/0x88.js:440-441 | The attacking colour is `get_color(piece) ^ 0x80`: the opponent of the piece on the square, and WHITE for an empty square. |
| Legality.AttackedByPiece | javascripts/0x88.js:431-448 | `is_attacked(sq)` holds exactly when some piece of the attacking colour, on a board square, has a pseudo-legal move to `sq`. |
| Legality.KingMoveIsKing | javascripts/0x88.js:488 | `(move.piece & 0x3F) === pieces['k']` holds exactly for king moves of either colour. |
| Legality.Filter | javascripts/0x88.js:486-498 | The filter keeps an order-preserving sub-list of the candidates. |
| Legality.TryMove | javascripts/0x88.js:487-493 | One trial (`do`, attack test, `undo`) decides safety and gives the array back unchanged. |
| Legality.FilterInPlace | javascripts/0x88.js:486-498 | Running the filter on one shared array, with a trial per candidate, leaves the array as it was and keeps exactly the filter's list. |
| Legality.FilterKeepsSafe | javascripts/0x88.js:486-498 | A move is kept exactly when it is a candidate whose trial application is safe. |
| Legality.Moves | javascripts/0x88.js:456-499 | `moves` yields the pseudo-legal list when asked for it or when that list is empty. Otherwise it yields an order-preserving sub-list of it, all inside the array. |
| Legality.LegalMembership | javascripts/0x88.js:481-498 | A move is legal exactly when it is pseudo-legal and its trial application leaves the guarded square unattacked. |
| Legality.LegalIsSafe | javascripts/0x88.js:486-498 | After a legal king move its target is not attacked. After any other legal move the scanned king square is not attacked. |
| Game.LegalMoves | javascripts/0x88.js:456-461 | `moves()` gives the side to move's own moves, inside the array. |
| Game.State | javascripts/0x88.js:141-156 | `state()` is ACTIVE exactly when a legal move exists. Otherwise it is GAME_OVER, reason CHECK_MATE, won by `turn ^ 0x80`. |
| Game.StateActive | javascripts/0x88.js:141-156 | The game is ACTIVE exactly when some pseudo-legal move of the side to move leaves its guarded square unattacked after a trial `do`. |
| Game.Do | javascripts/0x88.js:163-184 | `do` fails with 'Game Over' exactly when the state is not ACTIVE. Otherwise it pushes one snapshot, applies `Move.do`, passes the turn, and counts a full move exactly after BLACK's turn. Castling, en passant and the half-move clock are unchanged. |
| Game.Undo | javascripts/0x88.js:186-197 | `undo` fails exactly on an empty history. Otherwise it pops one snapshot and restores turn, array, castling, en passant and both clocks from it. |
| Game.UndoAfterDo | javascripts/0x88.js:163-197 | `undo` after a successful `do` gives the board back exactly, history included. |
| Game.ReplayAfterUndo | javascripts/0x88.js:186-197 | Since `Board.undo` leaves the move object done, doing the same move again passes the turn but moves no piece. |
| Game.DoLegal | javascripts/0x88.js:116-119 | A legal move can always be done. Afterwards the array holds the applied move and the turn is passed; `undo` gives the board back. |
| Game.Perft | javascripts/0x88.js:107-123 | `perft(d)` is the number of legal-move sequences of length `d`, counted by a recursive sum independent of the history, and the board comes back unchanged. |
| Game.PerftLoop | javascripts/0x88.js:116-121 | The loop adds `perft(d - 1)` after each legal move from the `i`-th on. Every `do` succeeds, and every `undo` restores the board. |
| Game.PerftOne | javascripts/0x88.js:112-114 | `perft(1)` is the number of legal moves. |
| Fen.RankTextClean | javascripts/0x88.js:300-316 | The `k`-th rank text of `fen()` is the run-length encoding of rank `8 - k`, and holds neither `/` nor a space. |
| Fen.ReduceIsEncode | javascripts/0x88.js:300-316 | The reduce of `fen()` writes the run-length encoding of the rest of the row, whatever came before. |
| Fen.RankTextIsEncode | javascripts/0x88.js:300-316 | Each rank text of `fen()` is the FEN run-length encoding of its eight cells. |
| Fen.EncodeChars | javascripts/0x88.js:300-316 | A rank text holds only piece letters and digits. |
| Fen.RankDigitIndex | javascripts/0x88.js:269-270 | `'12345678'.indexOf(bit) > -1` holds exactly for the digits 1-8, which `parseInt` reads as 1-8. |
| Fen.LoadRowStaysInRank | javascripts/0x88.js:265-276 | Loading one rank changes no square of another rank. |
| Fen.LoadRowEncode | javascripts/0x88.js:265-276 | Loading the encoding of a rank's files `f` to h fills exactly those files. |
| Fen.LoadEncodedRanks | javascripts/0x88.js:264-277 | Loading the eight encoded ranks onto an empty array rebuilds every square of a position whose padding is empty. |
| Fen.RankFieldSplits | javascripts/0x88.js:254 | The rank field of `fen()` holds no space. Splitting it on `/` and reversing gives the encoded ranks, rank 1 first. |
| Fen.TurnOf | javascripts/0x88.js:279 | The side to move is WHITE exactly for "w" or "W". |
| Fen.SetFlag | javascripts/0x88.js:284 | `castling \| bit` sets that bit, keeps every other castling bit, and stays within four bits. |
| Fen.CastlingOf | javascripts/0x88.js:281-286 | The castling loop of `load` keeps the mask within four bits. |
| Fen.CastlingOfHas | javascripts/0x88.js:281-286 | A bit is set after the loop exactly when it was set before, or its key occurs in the field. |
| Fen.CastlingStep | javascripts/0x88.js:283-285 | One entry of the loop sets its own bit when its key occurs, and leaves the other bits alone. |
| Fen.CastlingLoadsKeys | javascripts/0x88.js:281-286 | `load` sets exactly the bits whose keys occur in the castling field. |
| Fen.CastlingKeysHas | javascripts/0x88.js:318-322 | `fen()` writes a key exactly when its bit is set. |
| Fen.CastlingFieldKeys | javascripts/0x88.js:318-327 | The castling field holds a key exactly when its bit is set, and holds nothing but keys or `-`. |
| Fen.CastlingRoundTrip | javascripts/0x88.js:281-286 | The castling field of `fen()` loads back to the same mask. |
| Fen.EpFieldName | javascripts/0x88.js:328 | The en-passant field of `fen()` is a square name that `get_index` reads back as the field's number. |
| Fen.SplitFields | javascripts/0x88.js:253 | Splitting `fen()` on spaces gives its six fields back. |
| Fen.FieldsReadBack | javascripts/0x88.js:252-291 | Each field of `fen()` reads back as the value it was written from: ranks, turn, castling, en passant and both clocks below 2^53 in magnitude. |
| Fen.ClockRoundTrip | javascripts/0x88.js:289-290 | A clock below 2^53 in magnitude, written by `fen()` is a loadable clock field, and `parseInt` gives it back. |
| Fen.Load | javascripts/0x88.js:252-291 | `load` keeps the history and sets the turn to WHITE exactly for "w" or "W". En passant becomes `false` exactly for `-` and is a board square otherwise. The castling mask stays within four bits. |
| Fen.NewBoard | javascripts/0x88.js:10-104 | A new board has an empty history. Without FEN text it has the constructor's empty array, WHITE to move, all castling bits, a null en-passant field and zero clocks. With FEN text it is what `load` gives on any board with an empty history. |
| Fen.LoadFen | javascripts/0x88.js:252-331 | `load(fen())` restores every position field and keeps the loading board's history. A null or false en-passant field comes back as index 0. |
| Fen.FenLoadFen | javascripts/0x88.js:252-331 | `fen(load(s)) == s` for every text `s` that `fen()` produces. |
| Fen.DashReadsAsA1 | javascripts/0x88.js:288 | A `-` en-passant field is stored as `false`, and `fen()` writes it back as "a1". |
| Fen.IndexZeroIsA1 | javascripts/0x88.js:329 | `fen()` writes an en-passant value that `get_san` reads as index 0 (`false`, or the square a1) as "a1". |

## Left out

- `BitBoard` and `this.bitboards` (lines 12-38, 651-817) are left out: move generation and FEN never read them.
- `toString` (lines 230-246) is left out: it only renders the board as text. `array()` (lines 203-224) appears only as the rank-8-to-1 traversal inside `fen()`.
- `divide` and `Move.san` (lines 125-134, 633-636) are left out. They build a string-keyed report object, and `san` only calls `get_san`, which is modelled.
- The module and window exports (lines 819-823) and the commented-out perft timing are left out.
- The validation at line 261 is left out. It compares a boolean with 6 and 8, so it never throws.
- Castling moves, promotion, stalemate detection and en-passant target maintenance are not in the source, and not in the model.
- `Position.InArray` is a precondition of the array-changing members `Position.Place` (an index in 0..127), `MoveObject.Apply`, `MoveObject.Do`, `MoveObject.Undo`, `Legality.Filter`, `Game.Do`. A JavaScript array write outside 0..127 grows the array or sets a string-keyed property; the model keeps a fixed 128-slot sequence. `MoveGen.PseudoTargets` proves that every generated move meets this precondition.
- Position.Place: requires an index in 0..127, for the reason given for `Position.InArray` above.
- `Position.EpInReach` is a precondition of `Legality.Moves`, `Game.LegalMoves`, `Game.State`, `Game.Do` and `Game.Perft`. The en-passant field must be falsy or a board square off the first and last ranks, so that every en-passant candidate is inside the array. The program never sets the field during play, and `load` gives a square or `false`. `LoadableFen` accepts any square name, so a board loaded with an en-passant square on the first or last rank (such as "e8") is outside these members.
- Fen.Load: requires `LoadableFen`. JavaScript's behaviour outside it is not modelled: growing the array, NaN clocks from `parseInt`, clocks a JavaScript number cannot hold exactly, or `undefined.indexOf` on missing fields. The conditions are six or more fields, at most eight ranks whose pieces land on the 16-column grid, an en-passant field of `-` or a square name, and clocks that `parseInt` reads as a number below 2^53 in magnitude. White space, a sign and a hex prefix are read as `parseInt` reads them; a clock that reads as NaN is outside it.
- Fen.NewBoard: requires `LoadableFen` for non-empty text, as `Fen.Load` does.
- Fen.FenLoadFen: states `fen(load(s)) == s` only for texts that `fen()` produces from an `Exportable` board, meaning empty padding, a four-bit castling mask, an en-passant number on the board and both clocks below 2^53 in magnitude. The model takes these texts as the well-formed ones: their castling keys are in KQkq order and their en-passant field is a square.
- Fen.LoadFen: `load` turns a null or false en-passant field into the index 0. That is the value `fen()` wrote as "a1", so the round trip holds up to that field. It also requires an `Exportable` board, whose clocks are below 2^53 in magnitude, because larger clocks do not round-trip in the program.
- Fen.TurnOf: `toLowerCase` is modelled for ASCII letters only (`Squares.LowerChar`). Full Unicode case mapping is left out.
- Game.Perft: requires `depth >= 1`. For a depth of 0 or less, the source recurses without end as soon as a legal move exists.
- Squares.GetIndex: requires a non-negative row below 2^27 and a column in one nibble. That is the range where `row << 4 | column` is `16 * row + column`; every call in the engine is in it.
- Squares.GetIndexSan: requires a square name. For other text `get_index` computes NaN-based or negative values, which no modelled path reads.
- MoveGen.MoveGenerator, MoveGen.PawnMoves and MoveGen.PieceMoves: require a piece on a board square. `moves()` calls them only for own pieces found by the scan.
- The castling mask is an 8-bit value: the source only combines it with `|` and `&`, and it never exceeds 0x0F.
- Floating point is not modelled. Clocks are unbounded naturals, but the engine keeps them as JavaScript numbers. `parseInt` rounds integers above 2^53, and `String(n)` writes exponent form from 1e21. For example, `parseInt("99999999999999999999")` is 1e20, and `parseInt(String(1e21))` is 1. The members below are therefore stated only for clocks below 2^53 (`Text.MAX_SAFE`), where both operations are exact.
- Text.NatToString: writes every natural in plain decimal, but `String(n)` does so only below 1e21. Every round-trip lemma uses it only below 2^53.
- Text.ParseIntNatToString: requires `n < 2^53` (Text.ParseIntIntToString: `|n| < 2^53`). Above that, a JavaScript number cannot hold every integer, and from 1e21 `String(n)` no longer reads back.
- Fen.ClockRoundTrip: requires a clock below 2^53 in magnitude, for the same reason.
- Fen.FieldsReadBack: requires an `Exportable` board, whose clocks are below 2^53 in magnitude.
- Text.ParseIntDigitStart: states the NaN case and the value only for text that starts with a decimal digit; white space, signs and text without digits are covered by Text.ParseIntSkipsSpace, Text.ParseIntSign and Text.ParseIntNoDigit.
- Text.ParseIntSign: "-0" reads as 0 in the model and as -0 in JavaScript. Both print as "0" and count the same in the clocks, so the model does not keep negative zero.

## Findings

| source | as written | input that shows it | evidently intended | confidence | as-written member | corrected member |
|---|---|---|---|---|---|---|
| javascripts/0x88.js:599-624 | The constructor's `var to` redeclares the `to` parameter, so `do` stores the captured piece in the variable that held the target index. A second `do` on the same move object reads `piece_at(<captured code>)` instead of the target. | A white rook on a1 (0x00) takes a black pawn on a2 (0x10) with b1 (0x01) empty. After `do`, `undo`, `do`, `undo` with one move object, a2 is empty and the pawn is lost. | The capture is kept in its own variable, so every `do`/`undo` round trip restores the array. | not executed | MoveAsWritten.SecondRoundTripLosesCapture | MoveAsWritten.CorrectedSecondRoundTrip |

=== FILE: fen.dfy ===
/** FEN text: `fen()` writes the position fields as the six space-separated
    fields of Forsyth-Edwards Notation, and `load(fen)` reads them back onto a
    reset board. */
module Fen {
  import opened Wrappers
  import opened Text
  import opened Squares
  import opened Pieces
  import opened Position

  // ---------------------------------------------------------------- export

  /** One row of `array()`: files a to h of `rank`. */
  function Cells(pos: Slots, rank: int): (r: seq<Option<Piece>>)
    requires 0 <= rank < 8
    ensures |r| == 8
    ensures forall f :: 0 <= f < 8 ==> r[f] == pos[GetIndex(rank, f)]
  {
    seq(8, f requires 0 <= f < 8 => pos[GetIndex(rank, f)])
  }

  /** `empty.toString()` when the count is non-zero, nothing otherwise. */
  function Flush(empty: nat): string {
    if empty > 0 then NatToString(empty) else ""
  }

  /** The `reduce` callback of `fen()` over the rest of a row: the text so
      far and the number of empty squares not yet written. */
  function ReduceRow(acc: string, empty: nat, rest: seq<Option<Piece>>): (string, nat)
    decreases |rest|
  {
    if |rest| == 0 then (acc, empty)
    else if rest[0].Some? then ReduceRow(acc + Flush(empty) + [Letter(rest[0].value)], 0, rest[1..])
    else ReduceRow(acc, empty + 1, rest[1..])
  }

  /** One rank of `fen()`: the reduce starts from the first cell's letter (or
      the empty string), `empty` starts at 1 exactly when that cell is empty,
      and the trailing count is appended at the end. */
  function RankText(cells: seq<Option<Piece>>): string
    requires |cells| >= 1
  {
    var first := if cells[0].Some? then [Letter(cells[0].value)] else "";
    var r := ReduceRow(first, if cells[0].None? then 1 else 0, cells[1..]);
    r.0 + Flush(r.1)
  }

  /** The run-length reading of a rank that FEN defines: each run of empty
      squares as its length, each piece as its letter. `empty` is the length
      of the run in progress. */
  function Encode(empty: nat, rest: seq<Option<Piece>>): string
    decreases |rest|
  {
    if |rest| == 0 then Flush(empty)
    else if rest[0].Some? then Flush(empty) + [Letter(rest[0].value)] + Encode(0, rest[1..])
    else Encode(empty + 1, rest[1..])
  }

  /** The eight ranks, from rank 8 down to rank 1 as `array()` lists them. */
  function RankTexts(pos: Slots): (r: seq<string>)
    ensures |r| == 8
  {
    seq(8, k requires 0 <= k < 8 => RankText(Cells(pos, 7 - k)))
  }

  /** The four single-bit values of `castling_map`. */
  predicate IsCastlingBit(bit: bv8) {
    bit == B_00 || bit == B_000 || bit == W_00 || bit == W_000
  }

  /** `castling & castling_map[key]` is truthy. */
  predicate HasFlag(c: bv8, bit: bv8) {
    c & bit != 0
  }

  /** The `for (key in castling_map)` loop of `fen()` from entry `k` on. */
  function CastlingKeys(c: bv8, k: nat): string
    requires k <= |CastlingMap|
    decreases |CastlingMap| - k
  {
    if k == |CastlingMap| then ""
    else (if HasFlag(c, CastlingMap[k].1) then [CastlingMap[k].0] else "") + CastlingKeys(c, k + 1)
  }

  /** `castling || '-'`. */
  function CastlingField(c: bv8): string {
    var keys := CastlingKeys(c, 0);
    if keys == "" then "-" else keys
  }

  /** `get_san(en_passant) || '-'`: null and false read as index 0, "a1". */
  function EpField(ep: EnPassant): string {
    var name := GetSan(EpNumber(ep));
    if name.Some? then name.value else "-"
  }

  function TurnField(t: Color): string {
    if t == White then "w" else "b"
  }

  /** The six fields of `fen()`: ranks, side to move, castling, en passant
      and the two clocks. */
  function Fields(b: Board): (r: seq<string>)
    ensures |r| == 6
  {
    [Join(RankTexts(b.positions), '/'), TurnField(b.turn), CastlingField(b.castling),
     EpField(b.enPassant), IntToString(b.halfMoves), IntToString(b.fullMoves)]
  }

  /** `fen()`: the six fields joined by spaces. */
  function Fen(b: Board): string {
    Join(Fields(b), ' ')
  }

  // ---------------------------------------------------------------- import

  const RankDigits: string := "12345678"

  /** The digit test of `load`, `'12345678'.indexOf(bit) > -1`; see
      `RankDigitIndex`. */
  predicate IsRankDigit(ch: char) {
    '1' <= ch <= '8'
  }

  lemma RankDigitIndex(ch: char)
    ensures IndexOf(RankDigits, ch) > -1 <==> IsRankDigit(ch)
    ensures IsRankDigit(ch) ==> IsDigit(ch) && 1 <= DigitValue(ch) <= 8
  {
    if '1' <= ch <= '8' {
      assert RankDigits[DigitValue(ch) - 1] == ch;
    }
  }

  /** Every piece a rank's characters place stays on the array's 16-column
      grid (`row << 4 | col` is `16 * row + col` only for `col < 16`). */
  predicate RowFits(chars: string, col: nat)
    decreases |chars|
  {
    if |chars| == 0 then true
    else
      var ch := chars[0];
      if IsRankDigit(ch) then RowFits(chars[1..], col + DigitValue(ch))
      else if PieceOfLetter(ch).Some? then col < 16 && RowFits(chars[1..], col + 1)
      else RowFits(chars[1..], col)
  }

  /** The loop of `load` over one rank's characters: a digit 1-8 skips that
      many columns, a piece letter is placed at `get_index(row, col)` and
      advances one column, anything else is ignored. */
  function LoadRow(pos: Slots, chars: string, row: int, col: nat): Slots
    requires 0 <= row < 8 && RowFits(chars, col)
    decreases |chars|
  {
    if |chars| == 0 then pos
    else
      var ch := chars[0];
      if IsRankDigit(ch) then
        LoadRow(pos, chars[1..], row, col + DigitValue(ch))
      else if PieceOfLetter(ch).Some? then
        var i := GetIndex(row, col);
        LoadRow(Place(pos, i, PieceOfLetter(ch)), chars[1..], row, col + 1)
      else LoadRow(pos, chars[1..], row, col)
  }

  /** Loading a rank changes no square of another rank. */
  lemma {:induction false} LoadRowStaysInRank(pos: Slots, chars: string, row: int, col: nat, i: int)
    requires 0 <= row < 8 && RowFits(chars, col)
    requires 0 <= i < SLOTS && i / 16 != row
    ensures LoadRow(pos, chars, row, col)[i] == pos[i]
    decreases |chars|
  {
    if |chars| > 0 {
      var ch := chars[0];
      if IsRankDigit(ch) {
        LoadRowStaysInRank(pos, chars[1..], row, col + DigitValue(ch), i);
      } else if PieceOfLetter(ch).Some? {
        var next := Place(pos, GetIndex(row, col), PieceOfLetter(ch));
        LoadRowStaysInRank(next, chars[1..], row, col + 1, i);
        assert PieceAt(next, i) == PieceAt(pos, i);
      } else {
        LoadRowStaysInRank(pos, chars[1..], row, col, i);
      }
    }
  }

  /** At most eight ranks, each fitting the grid. */
  predicate LoadableRanks(ranks: seq<string>) {
    |ranks| <= 8 && forall r :: 0 <= r < |ranks| ==> RowFits(ranks[r], 0)
  }

  /** Rank `r` onwards of `load`, rank `r` being the `r`-th of the reversed
      list (rank 1 first). */
  function LoadRows(pos: Slots, ranks: seq<string>, r: int): Slots
    requires LoadableRanks(ranks) && 0 <= r <= |ranks|
    decreases |ranks| - r
  {
    if r == |ranks| then pos
    else LoadRows(LoadRow(pos, ranks[r], r, 0), ranks, r + 1)
  }

  /** `Array.prototype.reverse`. */
  function Reverse<T>(s: seq<T>): (r: seq<T>)
    ensures |r| == |s| && forall i :: 0 <= i < |s| ==> r[i] == s[|s| - 1 - i]
  {
    seq(|s|, i requires 0 <= i < |s| => s[|s| - 1 - i])
  }

  /** ASCII `toLowerCase`. */
  function LowerString(t: string): (r: string)
    ensures |r| == |t| && forall i :: 0 <= i < |t| ==> r[i] == LowerChar(t[i])
  {
    seq(|t|, i requires 0 <= i < |t| => LowerChar(t[i]))
  }

  /** `parts[1].toLowerCase() === 'w' ? WHITE : BLACK`. */
  function TurnOf(t: string): (r: Color)
    ensures r == White <==> t == "w" || t == "W"
  {
    if LowerString(t) == "w" then White else Black
  }

  /** `c | bit` sets `bit` and keeps every other castling bit, and stays
      within four bits. */
  lemma SetFlag(c: bv8, bit: bv8, other: bv8)
    requires IsCastlingBit(bit) && IsCastlingBit(other)
    ensures HasFlag(c | bit, bit)
    ensures other != bit ==> (HasFlag(c | bit, other) <==> HasFlag(c, other))
    ensures c < 16 ==> c | bit < 16
  {
  }

  /** The `for (key in castling_map)` loop of `load` from entry `k` on: set
      the key's bit when the castling field contains the key anywhere. */
  function CastlingOf(text: string, c: bv8, k: nat): (r: bv8)
    requires k <= |CastlingMap|
    ensures c < 16 ==> r < 16
    decreases |CastlingMap| - k
  {
    if k == |CastlingMap| then c
    else
      var key := CastlingMap[k];
      SetFlag(c, key.1, key.1);
      CastlingOf(text, if IndexOf(text, key.0) != -1 then c | key.1 else c, k + 1)
  }

  /** What `load` needs to stay inside this model: six fields, at most eight
      ranks whose pieces fit the grid, an en-passant field that is "-" or a
      square name, and clocks that read as numbers. */
  predicate LoadableFen(s: string) {
    var parts := Split(s, ' ');
    |parts| >= 6 &&
    LoadableRanks(Reverse(Split(parts[0], '/'))) &&
    (parts[3] == "-" || IsSquareName(parts[3])) &&
    LoadableClock(parts[4]) && LoadableClock(parts[5])
  }

  /** A clock field that `parseInt` reads as an integer a JavaScript number
      holds exactly: not NaN, and below 2^53 in magnitude. */
  predicate LoadableClock(t: string) {
    ParseInt(t).Some? && -MAX_SAFE < ParseInt(t).value < MAX_SAFE
  }

  /** `load(fen)`: reset, place the ranks, then read the side to move, the
      castling keys, the en-passant square ("-" becomes `false`) and the two
      clocks. The history is not touched. */
  function Load(b: Board, s: string): (r: Board)
    requires LoadableFen(s)
    ensures r.history == b.history && r.castling < 16
    ensures var parts := Split(s, ' ');
      (r.turn == White <==> parts[1] == "w" || parts[1] == "W") &&
      (r.enPassant == False <==> parts[3] == "-") &&
      (r.enPassant != False ==> r.enPassant.Index? && OnBoard(r.enPassant.square))
  {
    var parts := Split(s, ' ');
    var cleared := Reset(b);
    Board(LoadRows(cleared.positions, Reverse(Split(parts[0], '/')), 0),
          TurnOf(parts[1]),
          CastlingOf(parts[2], 0, 0),
          if parts[3] == "-" then False else Index(GetIndexSan(parts[3])),
          ParseInt(parts[4]).value,
          ParseInt(parts[5]).value,
          cleared.history)
  }

  /** `new Board(fen)`: the constructor's fields, then `load` when the text
      is not empty. Loading discards everything but the history, so a
      non-empty text gives what loading it into any fresh board gives. */
  function NewBoard(fen: string): (r: Board)
    requires fen != "" ==> LoadableFen(fen)
    ensures r.history == []
    ensures fen == "" ==> r.positions == EmptySlots && r.turn == White && r.castling == ALL_CASTLING
    ensures fen == "" ==> r.enPassant == Null && r.halfMoves == 0 && r.fullMoves == 0
    ensures fen != "" ==> forall b: Board :: b.history == [] ==> r == Load(b, fen)
  {
    var initial := Board(EmptySlots, White, ALL_CASTLING, Null, 0, 0, []);
    if fen == "" then initial else Load(initial, fen)
  }

  // ---------------------------------------------------------------- rank text

  /** The reduce of `fen()` is the run-length encoding, whatever was written
      before it. */
  lemma {:induction false} ReduceIsEncode(acc: string, empty: nat, rest: seq<Option<Piece>>)
    ensures var r := ReduceRow(acc, empty, rest); r.0 + Flush(r.1) == acc + Encode(empty, rest)
    decreases |rest|
  {
    if |rest| > 0 {
      if rest[0].Some? {
        var next := acc + Flush(empty) + [Letter(rest[0].value)];
        ReduceIsEncode(next, 0, rest[1..]);
        assert next + Encode(0, rest[1..]) == acc + (Flush(empty) + [Letter(rest[0].value)] + Encode(0, rest[1..]));
      } else {
        ReduceIsEncode(acc, empty + 1, rest[1..]);
      }
    }
  }

  /** One rank of `fen()` is the run-length encoding of its eight cells. */
  lemma RankTextIsEncode(cells: seq<Option<Piece>>)
    requires |cells| >= 1
    ensures RankText(cells) == Encode(0, cells)
  {
    var first := if cells[0].Some? then [Letter(cells[0].value)] else "";
    ReduceIsEncode(first, if cells[0].None? then 1 else 0, cells[1..]);
    if cells[0].Some? {
      assert Flush(0) == "";
    } else {
      assert "" + Encode(1, cells[1..]) == Encode(1, cells[1..]);
    }
  }

  /** The characters a piece letter can be. */
  lemma LetterIsLetter(p: Piece)
    ensures var ch := Letter(p); ('a' <= ch <= 'z' || 'A' <= ch <= 'Z') && PieceOfLetter(ch) == Some(p)
  {
    LetterNamesPiece(p);
  }

  /** A rank's text is made of piece letters and digits only, so neither
      separator of the FEN string occurs in it. */
  lemma {:induction false} EncodeChars(empty: nat, rest: seq<Option<Piece>>)
    ensures forall i :: 0 <= i < |Encode(empty, rest)| ==>
      var ch := Encode(empty, rest)[i]; IsDigit(ch) || 'a' <= ch <= 'z' || 'A' <= ch <= 'Z'
    decreases |rest|
  {
    if |rest| > 0 {
      if rest[0].Some? {
        EncodeChars(0, rest[1..]);
        LetterIsLetter(rest[0].value);
      } else {
        EncodeChars(empty + 1, rest[1..]);
      }
    }
  }

  // ---------------------------------------------------------------- rank loading

  /** `P` copied on the board squares of ranks below `r` and on files below
      `f` of rank `r`; empty everywhere else. */
  function RowFilled(P: Slots, r: int, f: int): Slots {
    seq(SLOTS, i requires 0 <= i < SLOTS =>
      if (i / 16 < r && i % 16 < 8) || (i / 16 == r && i % 16 < f) then P[i] else None)
  }

  /** A single digit 1-8 written by `Flush` is read back as that skip. */
  lemma FlushDigit(e: nat)
    requires 1 <= e <= 8
    ensures |Flush(e)| == 1 && IsRankDigit(Flush(e)[0]) && DigitValue(Flush(e)[0]) == e
  {
    assert Flush(e) == [DigitChar(e)];
  }

  /** A letter is neither a rank digit nor ignored. */
  lemma LetterLoads(p: Piece)
    ensures !IsRankDigit(Letter(p)) && PieceOfLetter(Letter(p)) == Some(p)
  {
    LetterIsLetter(p);
  }

  /** Filling one more file of rank `r`: nothing to do for an empty cell,
      one placement for a piece. */
  lemma RowFilledStep(P: Slots, r: int, f: int)
    requires 0 <= r < 8 && 0 <= f < 8
    ensures Cells(P, r)[f].None? ==> RowFilled(P, r, f + 1) == RowFilled(P, r, f)
    ensures Cells(P, r)[f].Some? ==>
      RowFilled(P, r, f + 1) == Place(RowFilled(P, r, f), GetIndex(r, f), Cells(P, r)[f])
  {
    var i := GetIndex(r, f);
    if Cells(P, r)[f].None? {
      assert forall j :: 0 <= j < SLOTS ==> RowFilled(P, r, f + 1)[j] == RowFilled(P, r, f)[j];
    } else {
      assert forall j :: 0 <= j < SLOTS ==>
        RowFilled(P, r, f + 1)[j] == Place(RowFilled(P, r, f), i, Cells(P, r)[f])[j];
    }
  }

  /** A piece letter places its piece at the current file and moves on. */
  lemma LetterStep(pos: Slots, p: Piece, rest: string, r: int, f: int)
    requires 0 <= r < 8 && 0 <= f < 8
    requires RowFits(rest, f + 1)
    ensures RowFits([Letter(p)] + rest, f)
    ensures LoadRow(pos, [Letter(p)] + rest, r, f) == LoadRow(Place(pos, GetIndex(r, f), Some(p)), rest, r, f + 1)
  {
    LetterLoads(p);
    var tail := [Letter(p)] + rest;
    assert tail[0] == Letter(p) && tail[1..] == rest;
  }

  /** The digit of a run of `e` empty files skips `e` files. */
  lemma DigitStep(pos: Slots, e: nat, tail: string, r: int, col: nat)
    requires 0 <= r < 8 && 1 <= e <= 8
    requires RowFits(tail, col + e)
    ensures RowFits(Flush(e) + tail, col)
    ensures LoadRow(pos, Flush(e) + tail, r, col) == LoadRow(pos, tail, r, col + e)
  {
    FlushDigit(e);
    var s := Flush(e) + tail;
    assert s[0] == Flush(e)[0] && s[1..] == tail;
  }

  /** A run of `e` empty files then a piece letter: skip to `f`, place the
      piece there, continue at `f + 1`. */
  lemma LoadPieceStep(pos: Slots, p: Piece, rest: string, r: int, f: int, e: nat)
    requires 0 <= r < 8 && 1 <= e <= f < 8
    requires RowFits(rest, f + 1)
    ensures RowFits(Flush(e) + [Letter(p)] + rest, f - e)
    ensures LoadRow(pos, Flush(e) + [Letter(p)] + rest, r, f - e) ==
      LoadRow(Place(pos, GetIndex(r, f), Some(p)), rest, r, f + 1)
  {
    var tail := [Letter(p)] + rest;
    var s := Flush(e) + tail;
    assert Flush(e) + [Letter(p)] + rest == s;
    LetterStep(pos, p, rest, r, f);
    var c: nat := f - e;
    DigitStep(pos, e, tail, r, c);
    calc {
      LoadRow(pos, s, r, c);
      LoadRow(pos, tail, r, f);
      LoadRow(Place(pos, GetIndex(r, f), Some(p)), rest, r, f + 1);
    }
  }

  /** The trailing run of empty files is one digit that loads nothing. */
  lemma LoadRunEnd(pos: Slots, r: int, e: nat)
    requires 0 <= r < 8 && e <= 8
    ensures RowFits(Flush(e), 8 - e)
    ensures LoadRow(pos, Flush(e), r, 8 - e) == pos
  {
    if e > 0 {
      FlushDigit(e);
      assert Flush(e)[1..] == [];
    }
  }

  /** Loading the encoding of files `f` to h of rank `r`, with a pending run
      of `e` empty files before `f`, fills the rest of the rank. */
  lemma {:induction false} LoadRowEncode(P: Slots, r: int, f: int, e: nat)
    requires 0 <= r < 8 && 0 <= e <= f <= 8
    requires forall k :: f - e <= k < f ==> Cells(P, r)[k] == None
    ensures RowFits(Encode(e, Cells(P, r)[f..]), f - e)
    ensures LoadRow(RowFilled(P, r, f), Encode(e, Cells(P, r)[f..]), r, f - e) == RowFilled(P, r, 8)
    decreases 8 - f
  {
    var cells := Cells(P, r);
    if f == 8 {
      assert cells[f..] == [];
      LoadRunEnd(RowFilled(P, r, f), r, e);
    } else {
      assert cells[f..][0] == cells[f] && cells[f..][1..] == cells[f + 1..];
      RowFilledStep(P, r, f);
      if cells[f].None? {
        LoadRowEncode(P, r, f + 1, e + 1);
      } else {
        LoadRowEncode(P, r, f + 1, 0);
        var rest := Encode(0, cells[f + 1..]);
        if e > 0 {
          LoadPieceStep(RowFilled(P, r, f), cells[f].value, rest, r, f, e);
        } else {
          assert Encode(e, cells[f..]) == [Letter(cells[f].value)] + rest;
          LetterStep(RowFilled(P, r, f), cells[f].value, rest, r, f);
        }
      }
    }
  }

  /** The encodings of the eight ranks, rank 1 first. */
  function EncodedRanks(P: Slots): (r: seq<string>)
    ensures |r| == 8
  {
    seq(8, k requires 0 <= k < 8 => Encode(0, Cells(P, k)))
  }

  lemma EncodedRanksLoadable(P: Slots)
    ensures LoadableRanks(EncodedRanks(P))
  {
    forall r | 0 <= r < 8
      ensures RowFits(EncodedRanks(P)[r], 0)
    {
      LoadRowEncode(P, r, 0, 0);
      assert Cells(P, r)[0..] == Cells(P, r);
    }
  }

  /** Loading the encoded ranks `r` to 8 on top of ranks below `r` gives
      every board square of `P`. */
  lemma {:induction false} LoadRowsFilled(P: Slots, r: int)
    requires 0 <= r <= 8
    ensures LoadableRanks(EncodedRanks(P))
    ensures LoadRows(RowFilled(P, r, 0), EncodedRanks(P), r) == RowFilled(P, 8, 0)
    decreases 8 - r
  {
    EncodedRanksLoadable(P);
    if r < 8 {
      LoadRowEncode(P, r, 0, 0);
      assert Cells(P, r)[0..] == Cells(P, r);
      assert RowFilled(P, r, 8) == RowFilled(P, r + 1, 0);
      LoadRowsFilled(P, r + 1);
    }
  }

  /** Loading all eight encoded ranks onto an empty array rebuilds a position
      whose padding is empty. */
  lemma LoadEncodedRanks(P: Slots)
    requires PaddingEmpty(P)
    ensures LoadableRanks(EncodedRanks(P))
    ensures LoadRows(EmptySlots, EncodedRanks(P), 0) == P
  {
    LoadRowsFilled(P, 0);
    assert RowFilled(P, 0, 0) == EmptySlots;
    forall i | 0 <= i < SLOTS
      ensures RowFilled(P, 8, 0)[i] == P[i]
    {
      if !HasIndex(i) {
        assert P[i] == None;
      }
    }
  }

  /** The rank field of `fen()` splits and reverses back into the encoded
      ranks. */
  lemma RankFieldSplits(P: Slots)
    ensures ' ' !in Join(RankTexts(P), '/')
    ensures Reverse(Split(Join(RankTexts(P), '/'), '/')) == EncodedRanks(P)
  {
    var texts := RankTexts(P);
    forall k | 0 <= k < 8
      ensures texts[k] == Encode(0, Cells(P, 7 - k))
      ensures '/' !in texts[k] && ' ' !in texts[k]
    {
      RankTextClean(P, k);
    }
    SplitJoin(texts, '/');
    JoinAvoids(texts, '/', ' ');
    var ranks := Reverse(texts);
    assert forall k :: 0 <= k < 8 ==> ranks[k] == texts[7 - k];
  }

  /** The `k`-th rank text is the encoding of rank `8 - k` and holds neither
      separator. */
  lemma RankTextClean(P: Slots, k: int)
    requires 0 <= k < 8
    ensures RankTexts(P)[k] == Encode(0, Cells(P, 7 - k))
    ensures '/' !in RankTexts(P)[k] && ' ' !in RankTexts(P)[k]
  {
    var cells := Cells(P, 7 - k);
    RankTextIsEncode(cells);
    var t := Encode(0, cells);
    EncodeChars(0, cells);
    forall i | 0 <= i < |t|
      ensures t[i] != '/' && t[i] != ' '
    {
    }
  }

  // ---------------------------------------------------------------- castling

  /** `fen()` writes a key exactly when its bit is set. */
  lemma {:induction false} CastlingKeysHas(c: bv8, k: nat, j: int)
    requires k <= |CastlingMap| && 0 <= j < |CastlingMap|
    ensures CastlingMap[j].0 in CastlingKeys(c, k) <==> k <= j && HasFlag(c, CastlingMap[j].1)
    decreases |CastlingMap| - k
  {
    if k < |CastlingMap| {
      CastlingKeysHas(c, k + 1, j);
      var head: string := if HasFlag(c, CastlingMap[k].1) then [CastlingMap[k].0] else "";
      assert CastlingKeys(c, k) == head + CastlingKeys(c, k + 1);
      KeysDistinct(j, k);
      assert CastlingMap[j].0 in head <==> j == k && HasFlag(c, CastlingMap[j].1);
    }
  }

  /** The four keys of `castling_map` are different letters, with different bits. */
  lemma KeysDistinct(j: int, k: int)
    requires 0 <= j < |CastlingMap| && 0 <= k < |CastlingMap|
    ensures CastlingMap[j].0 == CastlingMap[k].0 <==> j == k
    ensures CastlingMap[j].1 == CastlingMap[k].1 <==> j == k
    ensures IsCastlingBit(CastlingMap[j].1)
  {
  }

  /** `fen()` writes nothing but keys. */
  lemma {:induction false} CastlingKeysChars(c: bv8, k: nat)
    requires k <= |CastlingMap|
    ensures forall i :: 0 <= i < |CastlingKeys(c, k)| ==> CastlingKeys(c, k)[i] in "KQkq"
    decreases |CastlingMap| - k
  {
    if k < |CastlingMap| {
      CastlingKeysChars(c, k + 1);
    }
  }

  /** `load` sets a bit exactly when it was already set or its key occurs in
      the field. */
  lemma {:induction false} CastlingOfHas(text: string, c: bv8, k: nat, j: int)
    requires k <= |CastlingMap| && 0 <= j < |CastlingMap|
    ensures HasFlag(CastlingOf(text, c, k), CastlingMap[j].1) <==>
      HasFlag(c, CastlingMap[j].1) || (k <= j && CastlingMap[j].0 in text)
    decreases |CastlingMap| - k
  {
    if k < |CastlingMap| {
      var key := CastlingMap[k];
      var next := if IndexOf(text, key.0) != -1 then c | key.1 else c;
      CastlingOfHas(text, next, k + 1, j);
      CastlingStep(text, c, k, j);
    }
  }

  /** One entry of the `load` loop sets its own bit when its key occurs and
      leaves the other bits alone. */
  lemma CastlingStep(text: string, c: bv8, k: nat, j: int)
    requires k < |CastlingMap| && 0 <= j < |CastlingMap|
    ensures var key := CastlingMap[k];
      var next := if IndexOf(text, key.0) != -1 then c | key.1 else c;
      HasFlag(next, CastlingMap[j].1) <==> HasFlag(c, CastlingMap[j].1) || (j == k && key.0 in text)
  {
    var key := CastlingMap[k];
    var other := CastlingMap[j].1;
    KeysDistinct(j, k);
    KeysDistinct(k, k);
    BitStep(c, key.1, other, IndexOf(text, key.0) != -1);
  }

  lemma BitStep(c: bv8, bit: bv8, other: bv8, present: bool)
    requires IsCastlingBit(bit) && IsCastlingBit(other)
    ensures HasFlag(if present then c | bit else c, other) <==> HasFlag(c, other) || (present && bit == other)
  {
    SetFlag(c, bit, other);
  }

  /** `load` sets exactly the bits whose keys occur in the field. */
  lemma CastlingLoadsKeys(field: string, j: int)
    requires 0 <= j < |CastlingMap|
    ensures HasFlag(CastlingOf(field, 0, 0), CastlingMap[j].1) <==> CastlingMap[j].0 in field
  {
    CastlingOfHas(field, 0, 0, j);
  }

  /** `fen()` writes exactly the keys whose bits are set, and nothing but
      keys or a dash. */
  lemma CastlingFieldKeys(c: bv8, j: int)
    requires 0 <= j < |CastlingMap|
    ensures CastlingMap[j].0 in CastlingField(c) <==> HasFlag(c, CastlingMap[j].1)
    ensures forall i :: 0 <= i < |CastlingField(c)| ==> CastlingField(c)[i] in "KQkq-"
  {
    CastlingKeysHas(c, 0, j);
    CastlingKeysChars(c, 0);
  }

  /** The castling field of `fen()` loads back to the same mask. */
  lemma CastlingRoundTrip(c: bv8)
    requires c < 16
    ensures CastlingOf(CastlingField(c), 0, 0) == c
  {
    var r := CastlingOf(CastlingField(c), 0, 0);
    CastlingLoadsKeys(CastlingField(c), 0);
    CastlingFieldKeys(c, 0);
    CastlingLoadsKeys(CastlingField(c), 1);
    CastlingFieldKeys(c, 1);
    CastlingLoadsKeys(CastlingField(c), 2);
    CastlingFieldKeys(c, 2);
    CastlingLoadsKeys(CastlingField(c), 3);
    CastlingFieldKeys(c, 3);
    SameBitsSameMask(r, c);
  }

  /** Two masks below 16 with the same castling bits are equal. */
  lemma SameBitsSameMask(a: bv8, b: bv8)
    requires a < 16 && b < 16
    requires HasFlag(a, B_00) == HasFlag(b, B_00) && HasFlag(a, B_000) == HasFlag(b, B_000)
    requires HasFlag(a, W_00) == HasFlag(b, W_00) && HasFlag(a, W_000) == HasFlag(b, W_000)
    ensures a == b
  {
  }

  // ---------------------------------------------------------------- round trip

  /** The boards `fen()` describes faithfully: nothing in the padding, a
      castling mask of four bits, an en-passant field that names a board
      square (`null` and `false` name a1), and clocks that a JavaScript number
      holds exactly. */
  predicate Exportable(b: Board) {
    PaddingEmpty(b.positions) && b.castling < 16 && OnBoard(EpNumber(b.enPassant)) &&
    -MAX_SAFE < b.halfMoves < MAX_SAFE && -MAX_SAFE < b.fullMoves < MAX_SAFE
  }

  /** The en-passant field of `fen()` is a square name. */
  lemma EpFieldName(ep: EnPassant)
    requires OnBoard(EpNumber(ep))
    ensures IsSquareName(EpField(ep)) && |EpField(ep)| == 2
    ensures GetIndexSan(EpField(ep)) == EpNumber(ep)
    ensures ' ' !in EpField(ep)
  {
    var i := EpNumber(ep);
    SanRoundTrip(i);
    SanChars(i);
    assert EpField(ep) == GetSan(i).value;
  }

  /** No field of `fen()` holds a space, so splitting the text on spaces
      gives the fields back. */
  lemma SplitFields(b: Board)
    requires Exportable(b)
    ensures Split(Fen(b), ' ') == Fields(b)
  {
    var fs := Fields(b);
    FieldsNoSpace(b);
    SplitSix(fs);
  }

  lemma FieldsNoSpace(b: Board)
    requires Exportable(b)
    ensures ' ' !in Join(RankTexts(b.positions), '/') && ' ' !in TurnField(b.turn)
    ensures ' ' !in CastlingField(b.castling) && ' ' !in EpField(b.enPassant)
    ensures ' ' !in IntToString(b.halfMoves) && ' ' !in IntToString(b.fullMoves)
  {
    RankFieldSplits(b.positions);
    CastlingFieldNoSpace(b.castling);
    EpFieldName(b.enPassant);
    DigitsNoSpace(b.halfMoves);
    DigitsNoSpace(b.fullMoves);
  }

  lemma SplitSix(fs: seq<string>)
    requires |fs| == 6
    requires ' ' !in fs[0] && ' ' !in fs[1] && ' ' !in fs[2] && ' ' !in fs[3] && ' ' !in fs[4] && ' ' !in fs[5]
    ensures Split(Join(fs, ' '), ' ') == fs
  {
    assert forall i :: 0 <= i < 6 ==> ' ' !in fs[i];
    SplitJoin(fs, ' ');
  }

  lemma CastlingFieldNoSpace(c: bv8)
    ensures ' ' !in CastlingField(c)
  {
    CastlingFieldKeys(c, 0);
    var f := CastlingField(c);
    forall k | 0 <= k < |f|
      ensures f[k] != ' '
    {
      assert f[k] in "KQkq-";
    }
  }

  lemma DigitsNoSpace(n: int)
    ensures ' ' !in IntToString(n)
  {
    var t := NatToString(if n < 0 then -n else n);
    forall k | 0 <= k < |t|
      ensures t[k] != ' '
    {
      assert IsDigit(t[k]);
    }
    assert IntToString(n) == (if n < 0 then "-" + t else t);
  }


  /** `load(fen())` restores every position field. `load` keeps the history
      of the board it runs on, and an en-passant field of `null` or `false`
      comes back as the index 0, which is what `fen()` wrote for it. */
  lemma LoadFen(b0: Board, b: Board)
    requires Exportable(b)
    ensures LoadableFen(Fen(b))
    ensures Load(b0, Fen(b)) == b.(enPassant := Index(EpNumber(b.enPassant)), history := b0.history)
  {
    var fs := Fields(b);
    SplitFields(b);
    FieldsReadBack(b);
    EpFieldName(b.enPassant);
    LoadByFields(b0, Fen(b), fs);
  }

  /** Each field of `fen()` reads back as the value it was written from. */
  lemma FieldsReadBack(b: Board)
    requires Exportable(b)
    ensures var ranks := Reverse(Split(Join(RankTexts(b.positions), '/'), '/'));
      LoadableRanks(ranks) && LoadRows(EmptySlots, ranks, 0) == b.positions
    ensures TurnOf(TurnField(b.turn)) == b.turn
    ensures CastlingOf(CastlingField(b.castling), 0, 0) == b.castling
    ensures IsSquareName(EpField(b.enPassant)) && GetIndexSan(EpField(b.enPassant)) == EpNumber(b.enPassant)
    ensures ClockReadsBack(b.halfMoves) && ClockReadsBack(b.fullMoves)
  {
    RankFieldSplits(b.positions);
    EncodedRanksLoadable(b.positions);
    LoadEncodedRanks(b.positions);
    CastlingRoundTrip(b.castling);
    EpFieldName(b.enPassant);
    ClockRoundTrip(b.halfMoves);
    ClockRoundTrip(b.fullMoves);
  }

  /** A clock field is loadable and `parseInt` gives the clock back. */
  predicate ClockReadsBack(n: int) {
    var t := IntToString(n);
    LoadableClock(t) && ParseInt(t) == Some(n)
  }

  lemma ClockRoundTrip(n: int)
    requires -MAX_SAFE < n < MAX_SAFE
    ensures ClockReadsBack(n)
  {
    ParseIntIntToString(n);
  }

  /** `load` reads the six space-separated fields in order. */
  lemma LoadByFields(b0: Board, s: string, fs: seq<string>)
    requires Split(s, ' ') == fs && |fs| == 6
    requires LoadableRanks(Reverse(Split(fs[0], '/'))) && fs[3] != "-" && IsSquareName(fs[3])
    requires LoadableClock(fs[4]) && LoadableClock(fs[5])
    ensures LoadableFen(s)
    ensures Load(b0, s) == Board(LoadRows(EmptySlots, Reverse(Split(fs[0], '/')), 0), TurnOf(fs[1]),
      CastlingOf(fs[2], 0, 0), Index(GetIndexSan(fs[3])), ParseInt(fs[4]).value, ParseInt(fs[5]).value,
      b0.history)
  {
  }

  /** `fen(load(s)) == s` for every text `fen()` produces. */
  lemma FenLoadFen(b0: Board, b: Board)
    requires Exportable(b)
    ensures LoadableFen(Fen(b))
    ensures Fen(Load(b0, Fen(b))) == Fen(b)
  {
    LoadFen(b0, b);
    assert Fields(Load(b0, Fen(b))) == Fields(b);
  }

  /** A "-" en-passant field is stored as `false`, and `fen()` writes it back
      as "a1": `get_san(false)` reads `false` as the index 0. */
  lemma DashReadsAsA1(b0: Board, s: string)
    requires LoadableFen(s) && Split(s, ' ')[3] == "-"
    ensures Load(b0, s).enPassant == False
    ensures EpField(Load(b0, s).enPassant) == "a1"
  {
    var r := Load(b0, s);
    assert r.enPassant == False;
    IndexZeroIsA1(r.enPassant);
  }

  /** An en-passant value whose number is 0 is written as "a1". */
  lemma IndexZeroIsA1(ep: EnPassant)
    requires EpNumber(ep) == 0
    ensures EpField(ep) == "a1"
  {
    SanOfSquare(EpNumber(ep), 0, 0);
    var name := [Files[0], DigitChar(1)];
    assert EpField(ep) == name;
    assert name[0] == 'a' && name[1] == '1';
  }
}

=== FILE: game.dfy ===
/** Whole-board operations: `state()`, `Board.do`, `Board.undo` and
    `perft`. The history holds a full snapshot per applied move, so undoing is
    a restore rather than a replay. */
module Game {
  import opened Wrappers
  import opened Pieces
  import opened Position
  import opened MoveGen
  import opened Legality
  import MoveObject

  const GAME_OVER: int := 0
  const ACTIVE: int := 1
  const CHECK_MATE: int := 2
  const STALE_MATE: int := 4

  /** The object `state()` returns; `reason` and `winner` are undefined while
      the game is active. */
  datatype Status = Status(code: int, reason: Option<int>, winner: Option<Color>)

  /** The two exceptions of this part: 'Game Over' from `do` and 'There are
      no previous states to rollback to' from `undo`. */
  datatype Error = GameOver | NoHistory

  /** `moves()`: the legal moves of the side to move. */
  function LegalMoves(b: Board): (r: seq<Move>)
    requires EpInReach(b.enPassant)
    ensures forall m :: m in r ==> InArray(m) && OwnedBy(b.positions, m.from, b.turn)
  {
    Moves(b.positions, b.enPassant, b.turn, false)
  }

  /** `state()`: active while the side to move has a legal move; otherwise
      game over, always reported as check mate, won by the other side. */
  function State(b: Board): (r: Status)
    requires EpInReach(b.enPassant)
    ensures r.code == ACTIVE <==> |LegalMoves(b)| > 0
    ensures r.code == ACTIVE ==> r.reason == None && r.winner == None
    ensures r.code != ACTIVE ==> r == Status(GAME_OVER, Some(CHECK_MATE), Some(Opponent(b.turn)))
    ensures r.winner.Some? ==> ColorBit(r.winner.value) == FlipColorBit(ColorBit(b.turn))
  {
    OpponentIsXor(b.turn);
    if |LegalMoves(b)| > 0 then Status(ACTIVE, None, None)
    else Status(GAME_OVER, Some(CHECK_MATE), Some(Opponent(b.turn)))
  }

  /** The game goes on exactly while some pseudo-legal move of the side to
      move leaves its guarded square unattacked. */
  lemma StateActive(b: Board)
    requires EpInReach(b.enPassant)
    ensures State(b).code == ACTIVE <==>
      exists m :: m in PseudoMoves(b.positions, b.enPassant, b.turn) && InArray(m) &&
        Safe(b.positions, b.enPassant, KingSquare(b.positions, b.turn), m)
  {
    var ms := LegalMoves(b);
    if |ms| > 0 {
      LegalMembership(b.positions, b.enPassant, b.turn, ms[0]);
    } else {
      forall m | m in PseudoMoves(b.positions, b.enPassant, b.turn) && InArray(m)
        ensures !Safe(b.positions, b.enPassant, KingSquare(b.positions, b.turn), m)
      {
        LegalMembership(b.positions, b.enPassant, b.turn, m);
      }
    }
  }

  /** The snapshot `do` pushes: the move and a copy of every position field. */
  function SnapshotOf(b: Board, m: Move): Snapshot {
    Snapshot(m, b.turn, b.positions, b.castling, b.enPassant, b.fullMoves, b.halfMoves)
  }

  /** What a successful `do` hands back: the new board, the move object's
      state, and the `state()` it returns. */
  datatype Applied = Applied(board: Board, moveState: MoveObject.MoveState, status: Status)

  /** `Board.do(move)`: refuse when the game is over; otherwise push a
      snapshot, run `move.do`, count a full move after BLACK's turn and pass
      the turn. Castling, en passant and the half-move clock are untouched. */
  function Do(b: Board, m: Move, st: MoveObject.MoveState): (r: Result<Applied, Error>)
    requires EpInReach(b.enPassant) && InArray(m)
    ensures r.Err? <==> State(b).code != ACTIVE
    ensures r.Err? ==> r.error == GameOver
    ensures r.Ok? ==> r.value.board.history == b.history + [SnapshotOf(b, m)]
    ensures r.Ok? ==> r.value.board.turn == Opponent(b.turn)
    ensures r.Ok? ==> r.value.board.fullMoves == if b.turn == Black then b.fullMoves + 1 else b.fullMoves
    ensures r.Ok? ==> r.value.board.castling == b.castling && r.value.board.enPassant == b.enPassant
    ensures r.Ok? ==> r.value.board.halfMoves == b.halfMoves
    ensures r.Ok? ==> (r.value.board.positions, r.value.moveState) == MoveObject.Do(b.positions, m, st)
    ensures r.Ok? ==> (r.value.status.code == ACTIVE <==> |LegalMoves(r.value.board)| > 0)
  {
    if State(b).code != ACTIVE then Err(GameOver)
    else
      var d := MoveObject.Do(b.positions, m, st);
      var full := if b.turn == Black then b.fullMoves + 1 else b.fullMoves;
      var after := Board(d.0, Opponent(b.turn), b.castling, b.enPassant, b.halfMoves, full,
                         b.history + [SnapshotOf(b, m)]);
      Ok(Applied(after, d.1, State(after)))
  }

  /** `Board.undo()`: refuse on an empty history; otherwise pop the last
      snapshot and restore every field it holds. */
  function Undo(b: Board): (r: Result<Board, Error>)
    ensures r.Err? <==> |b.history| == 0
    ensures r.Err? ==> r.error == NoHistory
    ensures r.Ok? ==> |r.value.history| == |b.history| - 1 && r.value.history == b.history[..|b.history| - 1]
    ensures r.Ok? ==> var s := b.history[|b.history| - 1];
      r.value.positions == s.positions && r.value.turn == s.turn && r.value.castling == s.castling &&
      r.value.enPassant == s.enPassant && r.value.fullMoves == s.fullMoves && r.value.halfMoves == s.halfMoves
  {
    if |b.history| == 0 then Err(NoHistory)
    else
      var s := b.history[|b.history| - 1];
      Ok(Board(s.positions, s.turn, s.castling, s.enPassant, s.halfMoves, s.fullMoves,
               b.history[..|b.history| - 1]))
  }

  /** `undo` after a successful `do` gives back the board exactly, history
      included. */
  lemma UndoAfterDo(b: Board, m: Move, st: MoveObject.MoveState)
    requires EpInReach(b.enPassant) && InArray(m)
    requires Do(b, m, st).Ok?
    ensures Undo(Do(b, m, st).value.board) == Ok(b)
  {
    var a := Do(b, m, st).value.board;
    assert a.history[..|a.history| - 1] == b.history;
  }

  /** `Board.undo` never resets the move object, so doing the same move
      again after an undo passes the turn and pushes a snapshot but leaves
      every piece where it was. */
  lemma ReplayAfterUndo(b: Board, m: Move)
    requires EpInReach(b.enPassant) && InArray(m)
    requires Do(b, m, MoveObject.Pending).Ok?
    ensures var a := Do(b, m, MoveObject.Pending).value;
      var again := Do(b, m, a.moveState);
      again.Ok? && again.value.board.positions == b.positions && again.value.board.turn == Opponent(b.turn)
  {
  }

  /** The leaf count of the legal-move tree below a position, with no
      history, clocks or castling involved: one leaf per legal move at depth
      1, otherwise the sum over the legal moves of the count after each. */
  function Nodes(pos: Slots, ep: EnPassant, turn: Color, depth: int): nat
    requires depth >= 1 && EpInReach(ep)
    decreases depth, 0, 0
  {
    var ms := Moves(pos, ep, turn, false);
    if depth == 1 then |ms|
    else SumNodes(pos, ep, turn, depth - 1, ms)
  }

  function SumNodes(pos: Slots, ep: EnPassant, turn: Color, depth: int, ms: seq<Move>): nat
    requires depth >= 1 && EpInReach(ep)
    requires forall m :: m in ms ==> InArray(m)
    decreases depth, 1, |ms|
  {
    if |ms| == 0 then 0
    else
      Nodes(MoveObject.Apply(pos, ms[0]), ep, Opponent(turn), depth) +
      SumNodes(pos, ep, turn, depth, ms[1..])
  }

  /** `perft(depth)`: the number of legal-move sequences of length `depth`.
      Every `do` inside succeeds (there is a legal move to make, so the game
      is active), and the board, history included, is the same afterwards. */
  function Perft(b: Board, depth: int): (r: (nat, Board))
    requires depth >= 1 && EpInReach(b.enPassant)
    ensures r.1 == b
    ensures r.0 == Nodes(b.positions, b.enPassant, b.turn, depth)
    decreases depth, 1, 0
  {
    var ms := LegalMoves(b);
    if depth == 1 then (|ms|, b)
    else PerftLoop(b, depth, ms, 0)
  }

  /** The loop of `perft` from the `i`-th legal move on. */
  function PerftLoop(b: Board, depth: int, ms: seq<Move>, i: int): (r: (nat, Board))
    requires depth >= 2 && EpInReach(b.enPassant)
    requires ms == LegalMoves(b) && 0 <= i <= |ms|
    ensures r.1 == b
    ensures r.0 == SumNodes(b.positions, b.enPassant, b.turn, depth - 1, ms[i..])
    decreases depth, 0, |ms| - i
  {
    if i == |ms| then (0, b)
    else
      var m := ms[i];
      assert m in ms;
      DoLegal(b, m);
      var done := Do(b, m, MoveObject.Pending);
      var child := Perft(done.value.board, depth - 1);
      var undone := Undo(child.1);
      var rest := PerftLoop(undone.value, depth, ms, i + 1);
      assert ms[i..][1..] == ms[i + 1..];
      (child.0 + rest.0, rest.1)
  }

  /** A legal move can always be done: the game is active. The board after
      it holds the applied move with the turn passed, and `undo` gives the
      board back. */
  lemma DoLegal(b: Board, m: Move)
    requires EpInReach(b.enPassant) && m in LegalMoves(b)
    ensures InArray(m)
    ensures var d := Do(b, m, MoveObject.Pending);
      d.Ok? && d.value.board.positions == MoveObject.Apply(b.positions, m) &&
      d.value.board.enPassant == b.enPassant && d.value.board.turn == Opponent(b.turn) &&
      Undo(d.value.board) == Ok(b)
  {
    UndoAfterDo(b, m, MoveObject.Pending);
  }

  /** `perft(1)` is the number of legal moves. */
  lemma PerftOne(b: Board)
    requires EpInReach(b.enPassant)
    ensures Perft(b, 1).0 == |LegalMoves(b)|
  {
  }
}

=== FILE: legality.dfy ===
/** The attack test `is_attacked` and the legality filter of `moves()`. */
module Legality {
  import opened Wrappers
  import opened Pieces
  import opened Squares
  import opened Position
  import opened MoveGen
  import MoveObject

  /** `get_color(piece) ^ 0x80`: the opponent of the piece on the square, and
      WHITE for an empty one (`undefined ^ 0x80` is 0x80). */
  function AttackerOf(p: Option<Piece>): (r: Color)
    ensures ColorBit(r) == FlipColorBit(if p.None? then 0 else ColorBit(p.value.color))
    ensures p.Some? ==> r != p.value.color
  {
    if p.None? then White else Opponent(p.value.color)
  }

  /** `is_attacked(sq)`: some pseudo-legal move of the attacking colour
      targets `sq`. */
  predicate IsAttacked(pos: Slots, ep: EnPassant, sq: int) {
    Emits(PseudoMoves(pos, ep, AttackerOf(PieceAt(pos, sq))), sq)
  }

  /** A square is attacked exactly when one of the attacker's pieces, on a
      board square, has a move to it. */
  lemma AttackedByPiece(pos: Slots, ep: EnPassant, sq: int)
    ensures var a := AttackerOf(PieceAt(pos, sq));
      IsAttacked(pos, ep, sq) <==>
        exists from :: OnBoard(from) && OwnedBy(pos, from, a) && Emits(PieceMoves(pos, ep, from, a), sq)
  {
    var a := AttackerOf(PieceAt(pos, sq));
    var ps := PseudoMoves(pos, ep, a);
    if IsAttacked(pos, ep, sq) {
      var k :| 0 <= k < |ps| && ps[k].to == sq;
      AttackWitness(pos, ep, a, sq, ps[k]);
    }
    if exists from :: OnBoard(from) && OwnedBy(pos, from, a) && Emits(PieceMoves(pos, ep, from, a), sq) {
      var from :| OnBoard(from) && OwnedBy(pos, from, a) && Emits(PieceMoves(pos, ep, from, a), sq);
      AttackFrom(pos, ep, a, sq, from);
    }
  }

  lemma AttackWitness(pos: Slots, ep: EnPassant, a: Color, sq: int, m: Move)
    requires m in PseudoMoves(pos, ep, a) && m.to == sq
    ensures OnBoard(m.from) && OwnedBy(pos, m.from, a) && Emits(PieceMoves(pos, ep, m.from, a), sq)
  {
    PseudoMembership(pos, ep, a, m);
    var pm := PieceMoves(pos, ep, m.from, a);
    var j :| 0 <= j < |pm| && pm[j] == m;
  }

  lemma AttackFrom(pos: Slots, ep: EnPassant, a: Color, sq: int, from: int)
    requires OnBoard(from) && OwnedBy(pos, from, a) && Emits(PieceMoves(pos, ep, from, a), sq)
    ensures Emits(PseudoMoves(pos, ep, a), sq)
  {
    var pm := PieceMoves(pos, ep, from, a);
    var j :| 0 <= j < |pm| && pm[j].to == sq;
    var m := pm[j];
    assert m in pm;
    PseudoMembership(pos, ep, a, m);
    EmitsMember(PseudoMoves(pos, ep, a), m);
  }

  lemma EmitsMember(r: seq<Move>, m: Move)
    requires m in r
    ensures Emits(r, m.to)
  {
    var i :| 0 <= i < |r| && r[i] == m;
  }

  /** `(move.piece & 0x3F) === pieces['k']`: the filter's king-move test. */
  predicate IsKingMove(m: Move) {
    Code(m.piece) % 64 == 0x04
  }

  /** The king test reads the kind of the moving piece, whatever its colour. */
  lemma KingMoveIsKing(m: Move)
    ensures IsKingMove(m) <==> m.piece.kind == King
  {
    CodeReadsBack(m.piece);
  }

  /** The square whose safety decides a move: the target for a king move,
      otherwise the king square remembered by the scan. */
  function Guarded(king: Option<int>, m: Move): (r: Option<int>)
    ensures IsKingMove(m) ==> r == Some(m.to)
    ensures !IsKingMove(m) ==> r == king
  {
    if IsKingMove(m) then Some(m.to) else king
  }

  /** One step of the filter: with the move applied, the guarded square is
      not attacked. `is_attacked(undefined)` finds no move with
      `to === undefined`, so a missing king counts as safe. */
  predicate Safe(pos: Slots, ep: EnPassant, king: Option<int>, m: Move)
    requires InArray(m)
  {
    var after := MoveObject.Do(pos, m, MoveObject.Pending).0;
    var sq := Guarded(king, m);
    !(sq.Some? && IsAttacked(after, ep, sq.value))
  }

  /** `a` is `b` with some elements dropped, order kept. */
  predicate Subseq<T(==)>(a: seq<T>, b: seq<T>)
    decreases |b|
  {
    if |a| == 0 then true
    else if |b| == 0 then false
    else if a[0] == b[0] then Subseq(a[1..], b[1..])
    else Subseq(a, b[1..])
  }

  lemma {:induction false} SubseqCons<T>(a: seq<T>, x: T, b: seq<T>)
    requires Subseq(a, b)
    ensures Subseq(a, [x] + b)
    decreases |b|, 1
  {
    assert ([x] + b)[1..] == b;
    if |a| > 0 && a[0] == x {
      SubseqTail(a, b);
    }
  }

  lemma {:induction false} SubseqTail<T>(a: seq<T>, b: seq<T>)
    requires |a| > 0 && Subseq(a, b)
    ensures Subseq(a[1..], b)
    decreases |b|, 0
  {
    if a[0] == b[0] {
      SubseqCons(a[1..], b[0], b[1..]);
      assert [b[0]] + b[1..] == b;
    } else {
      SubseqTail(a, b[1..]);
      SubseqCons(a[1..], b[0], b[1..]);
      assert [b[0]] + b[1..] == b;
    }
  }

  /** `moves.filter(...)`: the moves whose trial application is safe, in
      their original order. */
  function Filter(pos: Slots, ep: EnPassant, king: Option<int>, ms: seq<Move>): (r: seq<Move>)
    requires forall m :: m in ms ==> InArray(m)
    ensures Subseq(r, ms)
    ensures forall m :: m in r ==> m in ms
  {
    if |ms| == 0 then []
    else
      var rest := Filter(pos, ep, king, ms[1..]);
      assert ms == [ms[0]] + ms[1..];
      if Safe(pos, ep, king, ms[0]) then
        assert ([ms[0]] + rest)[1..] == rest;
        [ms[0]] + rest
      else
        SubseqCons(rest, ms[0], ms[1..]);
        rest
  }

  /** The filter as the source runs it: each candidate is applied to the one
      shared array with `Move.do`, the guarded square is checked for attack, and the move
      is taken back with `Move.undo` before the next candidate. */
  method FilterInPlace(pos: Slots, ep: EnPassant, king: Option<int>, ms: seq<Move>)
    returns (kept: seq<Move>, after: Slots)
    requires forall m :: m in ms ==> InArray(m)
    ensures after == pos
    ensures kept == Filter(pos, ep, king, ms)
  {
    kept := [];
    after := pos;
    var i := 0;
    assert ms[i..] == ms;
    while i < |ms|
      invariant 0 <= i <= |ms|
      invariant after == pos
      invariant Filter(pos, ep, king, ms) == kept + Filter(pos, ep, king, ms[i..])
    {
      var m := ms[i];
      assert m in ms;
      var safe;
      safe, after := TryMove(after, ep, king, m);
      FilterAdvance(pos, ep, king, ms, i, kept);
      if safe {
        kept := kept + [m];
      }
      i := i + 1;
    }
    assert ms[i..] == [];
    assert kept + [] == kept;
  }

  /** One trial of the filter: `move.do`, the attack test on the guarded
      square, `move.undo`. The array comes back as it was. */
  method TryMove(pos: Slots, ep: EnPassant, king: Option<int>, m: Move) returns (safe: bool, after: Slots)
    requires InArray(m)
    ensures after == pos
    ensures safe == Safe(pos, ep, king, m)
  {
    var done := MoveObject.Do(pos, m, MoveObject.Pending);
    var sq := Guarded(king, m);
    var inCheck := sq.Some? && IsAttacked(done.0, ep, sq.value);
    var undone := MoveObject.Undo(done.0, m, done.1);
    MoveObject.DoUndo(pos, m);
    safe := !inCheck;
    after := undone.0;
  }

  /** The filter keeps exactly the safe moves. */
  lemma {:induction false} FilterKeepsSafe(pos: Slots, ep: EnPassant, king: Option<int>, ms: seq<Move>, m: Move)
    requires forall m :: m in ms ==> InArray(m)
    ensures m in Filter(pos, ep, king, ms) <==> m in ms && Safe(pos, ep, king, m)
  {
    if |ms| > 0 {
      FilterKeepsSafe(pos, ep, king, ms[1..], m);
      var head := if Safe(pos, ep, king, ms[0]) then [ms[0]] else [];
      FilterStep(pos, ep, king, ms, 0);
      assert ms[0..] == ms;
      assert m in Filter(pos, ep, king, ms) <==> m in head || m in Filter(pos, ep, king, ms[1..]);
      assert ms == [ms[0]] + ms[1..];
    }
  }

  /** One step of the in-place loop keeps the filter's remainder in step. */
  lemma FilterAdvance(pos: Slots, ep: EnPassant, king: Option<int>, ms: seq<Move>, i: int, kept: seq<Move>)
    requires forall m :: m in ms ==> InArray(m)
    requires 0 <= i < |ms|
    requires Filter(pos, ep, king, ms) == kept + Filter(pos, ep, king, ms[i..])
    ensures Filter(pos, ep, king, ms) ==
      (if Safe(pos, ep, king, ms[i]) then kept + [ms[i]] else kept) + Filter(pos, ep, king, ms[i + 1..])
  {
    FilterStep(pos, ep, king, ms, i);
    var rest := Filter(pos, ep, king, ms[i + 1..]);
    if Safe(pos, ep, king, ms[i]) {
      assert kept + ([ms[i]] + rest) == (kept + [ms[i]]) + rest;
    } else {
      assert [] + rest == rest;
    }
  }

  /** Unfolding the filter at position `i`. */
  lemma FilterStep(pos: Slots, ep: EnPassant, king: Option<int>, ms: seq<Move>, i: int)
    requires forall m :: m in ms ==> InArray(m)
    requires 0 <= i < |ms|
    ensures Filter(pos, ep, king, ms[i..]) ==
      (if Safe(pos, ep, king, ms[i]) then [ms[i]] else []) + Filter(pos, ep, king, ms[i + 1..])
  {
    assert ms[i..][1..] == ms[i + 1..];
  }

  /** `moves(player, psuedo_legal)`: the pseudo-legal list when asked for
      or when it is empty, otherwise its filtered sub-list, guarding the
      last own king found by the scan. */
  function Moves(pos: Slots, ep: EnPassant, player: Color, pseudo: bool): (r: seq<Move>)
    requires EpInReach(ep)
    ensures pseudo || |PseudoMoves(pos, ep, player)| == 0 ==> r == PseudoMoves(pos, ep, player)
    ensures Subseq(r, PseudoMoves(pos, ep, player))
    ensures forall m :: m in r ==> m in PseudoMoves(pos, ep, player) && InArray(m)
  {
    var ms := PseudoMoves(pos, ep, player);
    PseudoTargets(pos, ep, player);
    if pseudo || |ms| < 1 then
      SubseqRefl(ms);
      ms
    else Filter(pos, ep, KingSquare(pos, player), ms)
  }

  /** The legal list keeps exactly the pseudo-legal moves whose trial
      application is safe. */
  lemma LegalMembership(pos: Slots, ep: EnPassant, player: Color, m: Move)
    requires EpInReach(ep)
    ensures m in Moves(pos, ep, player, false) <==>
      m in PseudoMoves(pos, ep, player) && InArray(m) && Safe(pos, ep, KingSquare(pos, player), m)
  {
    var ms := PseudoMoves(pos, ep, player);
    PseudoTargets(pos, ep, player);
    if |ms| > 0 {
      FilterKeepsSafe(pos, ep, KingSquare(pos, player), ms, m);
    }
  }

  lemma {:induction false} SubseqRefl<T>(a: seq<T>)
    ensures Subseq(a, a)
  {
    if |a| > 0 {
      SubseqRefl(a[1..]);
    }
  }

  /** A legal king move leaves its target unattacked; any other legal move
      leaves the scanned king square unattacked. */
  lemma LegalIsSafe(pos: Slots, ep: EnPassant, player: Color, m: Move)
    requires EpInReach(ep)
    requires m in Moves(pos, ep, player, false)
    ensures InArray(m)
    ensures m.piece.kind == King ==>
      !IsAttacked(MoveObject.Apply(pos, m), ep, m.to)
    ensures m.piece.kind != King && KingSquare(pos, player).Some? ==>
      !IsAttacked(MoveObject.Apply(pos, m), ep, KingSquare(pos, player).value)
  {
    LegalMembership(pos, ep, player, m);
    KingMoveIsKing(m);
  }
}

=== FILE: movegen.dfy ===
/** Pseudo-legal move generation: stepping and sliding pieces through
    `move_generator`, pawns through `pawn_moves`, dispatched per square by the
    scan in `moves()`. */
module MoveGen {
  import opened Wrappers
  import opened Pieces
  import opened Squares
  import opened Position

  const RankFile: seq<int> := [-1, -16, 1, 16]
  const Diagonal: seq<int> := [-15, -17, 15, 17]
  const KnightOffsets: seq<int> := [31, 33, 14, 18, -18, -14, -33, -31]

  /** A non-zero offset no longer than the knight's longest jump. */
  predicate IsStep(d: int) {
    d != 0 && -33 <= d <= 33
  }

  /** `offsets[letter]`; pawns have no entry. */
  function Offsets(k: Kind): (r: seq<int>)
    requires k != Pawn
    ensures forall i :: 0 <= i < |r| ==> IsStep(r[i])
  {
    match k
    case Rook => RankFile
    case Knight => KnightOffsets
    case Bishop => Diagonal
    case Queen => RankFile + Diagonal
    case King => RankFile + Diagonal
  }

  /** One direction `d` of `move_generator`'s loop, walking on from `sq`: an
      off-board square or one of the player's own pieces ends the walk without
      a move; any other square is emitted, and the walk goes on only through an
      empty square and only for a sliding piece. */
  function Ray(pos: Slots, mover: Piece, from: int, player: Color, single: bool, d: int, sq: int): (r: seq<Move>)
    requires OnBoard(sq) && IsStep(d)
    ensures forall k :: 0 <= k < |r| ==> r[k].piece == mover && r[k].from == from && r[k].flags == None
    ensures forall k :: 0 <= k < |r| ==> OnBoard(r[k].to) && !OwnedBy(pos, r[k].to, player)
    ensures single ==> |r| <= 1
    decreases if d > 0 then 128 - sq else sq
  {
    var to := sq + d;
    if !HasIndex(to) then []
    else
      HasIndexInReach(to);
      var piece := PieceAt(pos, to);
      if piece.Some? && piece.value.color == player then []
      else
        [Move(mover, from, to, None)] +
        (if piece.Some? || single then [] else Ray(pos, mover, from, player, single, d, to))
  }

  /** A ray's targets are consecutive steps of `d` from `sq`; an empty ray
      means the first step is off the board or onto an own piece. */
  lemma {:induction false} RaySteps(pos: Slots, mover: Piece, from: int, player: Color, single: bool, d: int, sq: int)
    requires OnBoard(sq) && IsStep(d)
    ensures var r := Ray(pos, mover, from, player, single, d, sq);
      (|r| == 0 ==> !HasIndex(sq + d) || OwnedBy(pos, sq + d, player)) &&
      (|r| > 0 ==> r[0].to == sq + d) &&
      (forall k :: 0 < k < |r| ==> r[k].to == r[k - 1].to + d)
    decreases if d > 0 then 128 - sq else sq
  {
    var to := sq + d;
    if HasIndex(to) {
      HasIndexInReach(to);
      var piece := PieceAt(pos, to);
      if !(piece.Some? && piece.value.color == player) && !(piece.Some? || single) {
        RaySteps(pos, mover, from, player, single, d, to);
        var rest := Ray(pos, mover, from, player, single, d, to);
        var r := Ray(pos, mover, from, player, single, d, sq);
        assert forall k :: 0 < k < |r| ==> r[k] == rest[k - 1];
      }
    }
  }

  /** Every target but the last is empty. */
  predicate PassesEmpty(pos: Slots, r: seq<Move>) {
    forall k :: 0 <= k < |r| - 1 ==> PieceAt(pos, r[k].to) == None
  }

  /** A ray passes only through empty squares. */
  lemma {:induction false} RayThroughEmpty(pos: Slots, mover: Piece, from: int, player: Color, single: bool, d: int, sq: int)
    requires OnBoard(sq) && IsStep(d)
    ensures PassesEmpty(pos, Ray(pos, mover, from, player, single, d, sq))
    decreases if d > 0 then 128 - sq else sq
  {
    var to := sq + d;
    var r := Ray(pos, mover, from, player, single, d, sq);
    if HasIndex(to) {
      HasIndexInReach(to);
      var piece := PieceAt(pos, to);
      if piece.Some? && piece.value.color == player {
      } else if piece.Some? || single {
        assert |r| == 1;
      } else {
        RayThroughEmpty(pos, mover, from, player, single, d, to);
        var rest := Ray(pos, mover, from, player, single, d, to);
        assert r == [Move(mover, from, to, None)] + rest;
        forall k | 0 <= k < |r| - 1
          ensures PieceAt(pos, r[k].to) == None
        {
          if k > 0 {
            assert r[k] == rest[k - 1] && k - 1 < |rest| - 1;
          } else {
            assert r[0].to == to && piece.None?;
          }
        }
      }
    }
  }

  /** A ray is empty only when its first step is off the board or onto an
      own piece. */
  lemma RayEmpty(pos: Slots, mover: Piece, from: int, player: Color, d: int, sq: int)
    requires OnBoard(sq) && IsStep(d)
    ensures |Ray(pos, mover, from, player, false, d, sq)| == 0 ==> !HasIndex(sq + d) || OwnedBy(pos, sq + d, player)
  {
  }

  /** A sliding ray whose last target is empty stops because the next step
      is off the board or onto an own piece. */
  lemma {:induction false} RayStops(pos: Slots, mover: Piece, from: int, player: Color, d: int, sq: int)
    requires OnBoard(sq) && IsStep(d)
    ensures var r := Ray(pos, mover, from, player, false, d, sq);
      |r| > 0 && PieceAt(pos, r[|r| - 1].to) == None ==>
        !HasIndex(r[|r| - 1].to + d) || OwnedBy(pos, r[|r| - 1].to + d, player)
    decreases if d > 0 then 128 - sq else sq
  {
    var to := sq + d;
    var r := Ray(pos, mover, from, player, false, d, sq);
    if !HasIndex(to) {
      assert r == [];
    } else {
      HasIndexInReach(to);
      var piece := PieceAt(pos, to);
      if piece.None? {
        var rest := Ray(pos, mover, from, player, false, d, to);
        assert r == [Move(mover, from, to, None)] + rest;
        RayStops(pos, mover, from, player, d, to);
        RayEmpty(pos, mover, from, player, d, to);
        assert r[|r| - 1] == if |rest| == 0 then Move(mover, from, to, None) else rest[|rest| - 1];
      } else if piece.value.color == player {
        assert r == [];
      } else {
        assert r == [Move(mover, from, to, None)];
      }
    }
  }

  /** `move_generator(index, offsets, player, single)`: the rays of every
      offset, in offset order. */
  function MoveGenerator(pos: Slots, index: int, offsets: seq<int>, player: Color, single: bool): (r: seq<Move>)
    requires OnBoard(index) && pos[index].Some?
    requires forall i :: 0 <= i < |offsets| ==> IsStep(offsets[i])
    ensures forall m :: m in r ==> m.from == index && PieceAt(pos, index) == Some(m.piece) && m.flags == None
    ensures forall m :: m in r ==> OnBoard(m.to) && !OwnedBy(pos, m.to, player)
    ensures single ==> |r| <= |offsets|
  {
    if |offsets| == 0 then []
    else
      Ray(pos, pos[index].value, index, player, single, offsets[0], index) +
      MoveGenerator(pos, index, offsets[1..], player, single)
  }

  /** +16 (one rank up) for WHITE, -16 for BLACK. */
  function PawnDirection(player: Color): int {
    if player == White then 16 else -16
  }

  /** Some move of `r` lands on `t`. */
  predicate Emits(r: seq<Move>, t: int) {
    exists k :: 0 <= k < |r| && r[k].to == t
  }

  /** The en-passant test of `pawn_moves`: the field is truthy and the
      diagonal target minus the pawn's direction equals it. */
  predicate EpCandidate(ep: EnPassant, player: Color, t: int) {
    EpTruthy(ep) && t - PawnDirection(player) == ep.square
  }

  /** The single push of `pawn_moves`: `move(forward)` adds a move only when
      the square is empty and on the board. */
  predicate SinglePush(pos: Slots, index: int, player: Color) {
    var forward := index + PawnDirection(player);
    PieceAt(pos, forward) == None && HasIndex(forward)
  }

  /** The double push: after a single push, when one more step backwards
      from the pawn leaves the board. */
  predicate DoublePush(pos: Slots, index: int, player: Color) {
    var dir := PawnDirection(player);
    SinglePush(pos, index, player) && !HasIndex(index - 2 * dir) &&
    PieceAt(pos, index + 2 * dir) == None && HasIndex(index + 2 * dir)
  }

  /** One diagonal of `pawn_moves`: a capture of an opposing piece, otherwise
      an en-passant candidate flagged `EN_PASSANT`. */
  function PawnDiagonal(pos: Slots, ep: EnPassant, pawn: Piece, index: int, player: Color, to: int): (r: seq<Move>)
    ensures |r| <= 1
    ensures Emits(r, to) <==> OwnedBy(pos, to, Opponent(player)) || EpCandidate(ep, player, to)
    ensures forall m :: m in r ==> m.piece == pawn && m.from == index && m.to == to
    ensures forall m :: m in r ==> (m.flags == None <==> OwnedBy(pos, to, Opponent(player)))
    ensures forall m :: m in r ==> m.flags == None || m.flags == Some(EN_PASSANT)
    ensures forall m :: m in r && m.flags != None ==> EpCandidate(ep, player, to)
  {
    if OwnedBy(pos, to, Opponent(player)) then
      var r := [Move(pawn, index, to, None)];
      assert r[0].to == to;
      r
    else if EpCandidate(ep, player, to) then
      var r := [Move(pawn, index, to, Some(EN_PASSANT))];
      assert r[0].to == to;
      r
    else []
  }

  /** The pushes of `pawn_moves`: `move(forward)`, then `move(forward +
      direction)` when the first succeeded and the pawn stands on its first
      rank from its own side. */
  function PawnPushes(pos: Slots, index: int, player: Color): (r: seq<Move>)
    requires OnBoard(index) && pos[index].Some?
    ensures |r| <= 2
    ensures forall m :: m in r ==> m.from == index && PieceAt(pos, index) == Some(m.piece) && m.flags == None
    ensures forall m :: m in r ==>
      m.to == index + PawnDirection(player) || m.to == index + 2 * PawnDirection(player)
    ensures Emits(r, index + PawnDirection(player)) <==> SinglePush(pos, index, player)
    ensures Emits(r, index + 2 * PawnDirection(player)) <==> DoublePush(pos, index, player)
    ensures forall m :: m in r ==> OnBoard(m.to) && PieceAt(pos, m.to) == None
  {
    var dir := PawnDirection(player);
    var pawn := pos[index].value;
    HasIndexInReach(index + dir);
    HasIndexInReach(index + 2 * dir);
    if !SinglePush(pos, index, player) then []
    else if !DoublePush(pos, index, player) then
      var r := [Move(pawn, index, index + dir, None)];
      assert r[0].to == index + dir;
      r
    else
      var r := [Move(pawn, index, index + dir, None), Move(pawn, index, index + 2 * dir, None)];
      assert r[0].to == index + dir && r[1].to == index + 2 * dir;
      r
  }

  /** `pawn_moves(index, player)`: the pushes, then the two diagonals
      `forward - 1` and `forward + 1`. */
  function PawnMoves(pos: Slots, ep: EnPassant, index: int, player: Color): (r: seq<Move>)
    requires OnBoard(index) && pos[index].Some?
    ensures forall m :: m in r ==> m.from == index && PieceAt(pos, index) == Some(m.piece)
    ensures |r| <= 4
    ensures forall m :: m in r ==> CleanTarget(pos, ep, player, m)
  {
    var forward := index + PawnDirection(player);
    var pawn := pos[index].value;
    var pushes := PawnPushes(pos, index, player);
    var left := PawnDiagonal(pos, ep, pawn, index, player, forward - 1);
    var right := PawnDiagonal(pos, ep, pawn, index, player, forward + 1);
    DiagonalClean(pos, ep, pawn, index, player, forward - 1);
    DiagonalClean(pos, ep, pawn, index, player, forward + 1);
    assert forall m :: m in pushes ==> CleanTarget(pos, ep, player, m);
    pushes + left + right
  }

  lemma DiagonalClean(pos: Slots, ep: EnPassant, pawn: Piece, index: int, player: Color, to: int)
    ensures forall m :: m in PawnDiagonal(pos, ep, pawn, index, player, to) ==> CleanTarget(pos, ep, player, m)
  {
    OccupiedOnBoard(pos, to);
  }

  /** What every generated move promises about its target: a move without a
      flag lands inside the array, never on one of the player's own pieces,
      and (when the padding is empty) on the board; a flagged move is an
      en-passant candidate, whose target square is not examined at all. */
  predicate CleanTarget(pos: Slots, ep: EnPassant, player: Color, m: Move) {
    if m.flags == None then
      0 <= m.to < SLOTS && !OwnedBy(pos, m.to, player) && (PaddingEmpty(pos) ==> OnBoard(m.to))
    else
      m.flags == Some(EN_PASSANT) && EpCandidate(ep, player, m.to)
  }

  /** With empty padding, an occupied slot is a board square. */
  lemma OccupiedOnBoard(pos: Slots, i: int)
    ensures PaddingEmpty(pos) && PieceAt(pos, i).Some? ==> OnBoard(i)
  {
    if PaddingEmpty(pos) && PieceAt(pos, i).Some? {
      HasIndexInReach(i);
    }
  }

  /** The push squares of `pawn_moves` are emitted exactly when the push
      rules allow them. */
  lemma PawnPushTargets(pos: Slots, ep: EnPassant, index: int, player: Color)
    requires OnBoard(index) && pos[index].Some?
    ensures Emits(PawnMoves(pos, ep, index, player), index + PawnDirection(player)) <==>
      SinglePush(pos, index, player)
    ensures Emits(PawnMoves(pos, ep, index, player), index + 2 * PawnDirection(player)) <==>
      DoublePush(pos, index, player)
  {
    var dir := PawnDirection(player);
    PushTarget(pos, ep, index, player, index + dir);
    PushTarget(pos, ep, index, player, index + 2 * dir);
  }

  /** A square straight ahead is emitted by `pawn_moves` exactly when the
      pushes emit it: the diagonals land elsewhere. */
  lemma PushTarget(pos: Slots, ep: EnPassant, index: int, player: Color, t: int)
    requires OnBoard(index) && pos[index].Some?
    requires t == index + PawnDirection(player) || t == index + 2 * PawnDirection(player)
    ensures Emits(PawnMoves(pos, ep, index, player), t) <==> Emits(PawnPushes(pos, index, player), t)
  {
    var dir := PawnDirection(player);
    var pawn := pos[index].value;
    var pushes := PawnPushes(pos, index, player);
    var left := PawnDiagonal(pos, ep, pawn, index, player, index + dir - 1);
    var right := PawnDiagonal(pos, ep, pawn, index, player, index + dir + 1);
    PawnMovesParts(pos, ep, index, player);
    assert dir == 16 || dir == -16;
    EmitsConcat(pushes, left, right, t);
    NotEmitted(left, index + dir - 1, t);
    NotEmitted(right, index + dir + 1, t);
  }

  /** `pawn_moves` is the pushes followed by the left and the right diagonal. */
  lemma PawnMovesParts(pos: Slots, ep: EnPassant, index: int, player: Color)
    requires OnBoard(index) && pos[index].Some?
    ensures var dir := PawnDirection(player);
      var pawn := pos[index].value;
      PawnMoves(pos, ep, index, player) == PawnPushes(pos, index, player) +
        PawnDiagonal(pos, ep, pawn, index, player, index + dir - 1) +
        PawnDiagonal(pos, ep, pawn, index, player, index + dir + 1)
  {
  }

  /** A list whose moves all land on `t` emits nothing else. */
  lemma NotEmitted(r: seq<Move>, t: int, u: int)
    requires forall m :: m in r ==> m.to == t
    requires u != t
    ensures !Emits(r, u)
  {
  }

  /** Each diagonal of `pawn_moves` (`side` -1 or +1) is emitted exactly when
      it holds an opposing piece or matches the en-passant field. */
  lemma PawnDiagonalTargets(pos: Slots, ep: EnPassant, index: int, player: Color, side: int)
    requires OnBoard(index) && pos[index].Some?
    requires side == -1 || side == 1
    ensures var t := index + PawnDirection(player) + side;
      Emits(PawnMoves(pos, ep, index, player), t) <==>
        OwnedBy(pos, t, Opponent(player)) || EpCandidate(ep, player, t)
  {
    var dir := PawnDirection(player);
    var t := index + dir + side;
    var pawn := pos[index].value;
    var pushes := PawnPushes(pos, index, player);
    var left := PawnDiagonal(pos, ep, pawn, index, player, index + dir - 1);
    var right := PawnDiagonal(pos, ep, pawn, index, player, index + dir + 1);
    PawnMovesParts(pos, ep, index, player);
    PushesMissDiagonals(pos, index, player);
    assert dir == 16 || dir == -16;
    EmitsConcat(pushes, left, right, t);
    if side == -1 {
      NotEmitted(right, index + dir + 1, t);
    } else {
      NotEmitted(left, index + dir - 1, t);
    }
  }

  lemma PushesMissDiagonals(pos: Slots, index: int, player: Color)
    requires OnBoard(index) && pos[index].Some?
    ensures !Emits(PawnPushes(pos, index, player), index + PawnDirection(player) - 1)
    ensures !Emits(PawnPushes(pos, index, player), index + PawnDirection(player) + 1)
  {
    var r := PawnPushes(pos, index, player);
    var dir := PawnDirection(player);
    forall k | 0 <= k < |r|
      ensures r[k].to != index + dir - 1 && r[k].to != index + dir + 1
    {
      assert r[k] in r;
    }
  }

  /** `pawn_moves` targets nothing but the two push squares and the two
      diagonals, and only en-passant candidates carry a flag. */
  lemma PawnTargetSquares(pos: Slots, ep: EnPassant, index: int, player: Color)
    requires OnBoard(index) && pos[index].Some?
    ensures var dir := PawnDirection(player);
      forall m :: m in PawnMoves(pos, ep, index, player) ==>
        m.to == index + dir || m.to == index + 2 * dir || m.to == index + dir - 1 || m.to == index + dir + 1
    ensures forall m :: m in PawnMoves(pos, ep, index, player) && m.flags != None ==>
      m.flags == Some(EN_PASSANT) && !OwnedBy(pos, m.to, Opponent(player)) && EpCandidate(ep, player, m.to)
  {
    var dir := PawnDirection(player);
    var pawn := pos[index].value;
    var pushes := PawnPushes(pos, index, player);
    var left := PawnDiagonal(pos, ep, pawn, index, player, index + dir - 1);
    var right := PawnDiagonal(pos, ep, pawn, index, player, index + dir + 1);
    assert PawnMoves(pos, ep, index, player) == pushes + left + right;
  }

  lemma EmitsConcat(a: seq<Move>, b: seq<Move>, c: seq<Move>, t: int)
    ensures Emits(a + b + c, t) <==> Emits(a, t) || Emits(b, t) || Emits(c, t)
  {
    var r := a + b + c;
    if Emits(r, t) {
      var k :| 0 <= k < |r| && r[k].to == t;
      if k < |a| {
        assert a[k] == r[k];
      } else if k < |a| + |b| {
        assert b[k - |a|] == r[k];
      } else {
        assert c[k - |a| - |b|] == r[k];
      }
    }
    if Emits(a, t) {
      var k :| 0 <= k < |a| && a[k].to == t;
      assert r[k] == a[k];
    }
    if Emits(b, t) {
      var k :| 0 <= k < |b| && b[k].to == t;
      assert r[|a| + k] == b[k];
    }
    if Emits(c, t) {
      var k :| 0 <= k < |c| && c[k].to == t;
      assert r[|a| + |b| + k] == c[k];
    }
  }


  /** `piece_moves(letter, index, player)`: pawns to `pawn_moves`, everything
      else to `move_generator`, single-stepping for king and knight. */
  function PieceMoves(pos: Slots, ep: EnPassant, index: int, player: Color): (r: seq<Move>)
    requires OnBoard(index) && pos[index].Some?
    ensures forall m :: m in r ==> m.from == index && PieceAt(pos, index) == Some(m.piece)
    ensures forall m :: m in r ==> CleanTarget(pos, ep, player, m)
    ensures forall m :: m in r && m.flags != None ==> m.piece.kind == Pawn
  {
    var kind := pos[index].value.kind;
    if kind == Pawn then PawnMoves(pos, ep, index, player)
    else MoveGenerator(pos, index, Offsets(kind), player, kind == King || kind == Knight)
  }

  /** The body of the scan in `moves()` over the squares `sqs`: the moves of
      every square holding one of `player`'s pieces, in scan order. */
  function Gather(pos: Slots, ep: EnPassant, player: Color, sqs: seq<int>): (r: seq<Move>)
    requires forall k :: 0 <= k < |sqs| ==> OnBoard(sqs[k])
    ensures forall m :: m in r ==> m.from in sqs && PieceAt(pos, m.from) == Some(m.piece) && m.piece.color == player
    ensures forall m :: m in r ==> CleanTarget(pos, ep, player, m)
    ensures forall m :: m in r && m.flags != None ==> m.piece.kind == Pawn
  {
    if |sqs| == 0 then []
    else
      (if OwnedBy(pos, sqs[0], player) then PieceMoves(pos, ep, sqs[0], player) else []) +
      Gather(pos, ep, player, sqs[1..])
  }

  /** `moves(player, true)`: the pseudo-legal moves of `player`. */
  function PseudoMoves(pos: Slots, ep: EnPassant, player: Color): (r: seq<Move>)
    ensures forall m :: m in r ==>
      OnBoard(m.from) && PieceAt(pos, m.from) == Some(m.piece) && m.piece.color == player
    ensures forall m :: m in r ==> CleanTarget(pos, ep, player, m)
    ensures forall m :: m in r && m.flags != None ==> m.piece.kind == Pawn
  {
    ScanOrderSquares(0);
    Gather(pos, ep, player, ScanOrder(0))
  }

  /** A move is in the scan's list exactly when it is one of the moves of an
      own piece standing on its origin square. */
  lemma PseudoMembership(pos: Slots, ep: EnPassant, player: Color, m: Move)
    ensures m in PseudoMoves(pos, ep, player) <==>
      OnBoard(m.from) && OwnedBy(pos, m.from, player) && m in PieceMoves(pos, ep, m.from, player)
  {
    SixtyFourSquares();
    ScanOrderSquares(0);
    GatherMembership(pos, ep, player, ScanOrder(0), m);
  }

  lemma {:induction false} GatherMembership(pos: Slots, ep: EnPassant, player: Color, sqs: seq<int>, m: Move)
    requires forall k :: 0 <= k < |sqs| ==> OnBoard(sqs[k])
    ensures m in Gather(pos, ep, player, sqs) <==>
      m.from in sqs && OwnedBy(pos, m.from, player) && m in PieceMoves(pos, ep, m.from, player)
  {
    if |sqs| > 0 {
      GatherMembership(pos, ep, player, sqs[1..], m);
      var head := if OwnedBy(pos, sqs[0], player) then PieceMoves(pos, ep, sqs[0], player) else [];
      assert Gather(pos, ep, player, sqs) == head + Gather(pos, ep, player, sqs[1..]);
      assert m.from in sqs <==> m.from == sqs[0] || m.from in sqs[1..];
      assert m in head <==> m.from == sqs[0] && OwnedBy(pos, m.from, player) && m in PieceMoves(pos, ep, m.from, player);
    }
  }

  /** With the en-passant field in reach, every pseudo-legal move addresses
      the array; with empty padding as well, every target is a board square. */
  lemma PseudoTargets(pos: Slots, ep: EnPassant, player: Color)
    requires EpInReach(ep)
    ensures forall m :: m in PseudoMoves(pos, ep, player) ==> InArray(m)
    ensures PaddingEmpty(pos) ==> forall m :: m in PseudoMoves(pos, ep, player) ==> OnBoard(m.to)
  {
    var r := PseudoMoves(pos, ep, player);
    forall m | m in r
      ensures InArray(m) && (PaddingEmpty(pos) ==> OnBoard(m.to))
    {
      CleanInReach(pos, ep, player, m);
    }
  }

  lemma CleanInReach(pos: Slots, ep: EnPassant, player: Color, m: Move)
    requires CleanTarget(pos, ep, player, m) && EpInReach(ep)
    ensures 0 <= m.to < SLOTS && (PaddingEmpty(pos) ==> OnBoard(m.to))
  {
    if m.flags != None {
      var sq := ep.square;
      assert m.to == sq + PawnDirection(player);
      assert m.to % 16 == sq % 16;
      HasIndexInReach(m.to);
      HasIndexInReach(sq);
    }
  }

  /** Which colour's king sits at `i`. */
  predicate KingAt(pos: Slots, i: int, player: Color) {
    PieceAt(pos, i) == Some(Piece(player, King))
  }

  /** The king square `moves()` remembers while scanning `sqs`: each own king
      found overwrites the previous one, so the last one wins. */
  function LastKing(pos: Slots, player: Color, sqs: seq<int>): (r: Option<int>)
    ensures r.Some? ==>
      exists k :: 0 <= k < |sqs| && sqs[k] == r.value && forall l :: k < l < |sqs| ==> !KingAt(pos, sqs[l], player)
    ensures r.Some? ==> KingAt(pos, r.value, player)
    ensures r.None? ==> forall k :: 0 <= k < |sqs| ==> !KingAt(pos, sqs[k], player)
  {
    if |sqs| == 0 then None
    else
      var later := LastKing(pos, player, sqs[1..]);
      if later.Some? then
        var k :| 0 <= k < |sqs[1..]| && sqs[1..][k] == later.value &&
          forall l :: k < l < |sqs[1..]| ==> !KingAt(pos, sqs[1..][l], player);
        assert sqs[k + 1] == later.value;
        later
      else if KingAt(pos, sqs[0], player) then Some(sqs[0])
      else None
  }

  /** The king square of the scan over the whole board: the own king on the
      highest on-board index, if any. */
  function KingSquare(pos: Slots, player: Color): (r: Option<int>)
    ensures r.Some? ==> OnBoard(r.value) && KingAt(pos, r.value, player)
    ensures r.Some? ==> forall j :: r.value < j < 128 && OnBoard(j) ==> !KingAt(pos, j, player)
    ensures r.None? ==> forall j :: 0 <= j < 128 && OnBoard(j) ==> !KingAt(pos, j, player)
  {
    var sqs := ScanOrder(0);
    ScanOrderSquares(0);
    ScanOrderCovers(0);
    var r := LastKing(pos, player, sqs);
    if r.Some? then
      LastKingIsHighest(pos, player, sqs, r.value);
      r
    else r
  }

  lemma LastKingIsHighest(pos: Slots, player: Color, sqs: seq<int>, s: int)
    requires sqs == ScanOrder(0)
    requires
      exists k :: 0 <= k < |sqs| && sqs[k] == s && forall l :: k < l < |sqs| ==> !KingAt(pos, sqs[l], player)
    ensures OnBoard(s)
    ensures forall j :: s < j < 128 && OnBoard(j) ==> !KingAt(pos, j, player)
  {
    var k :| 0 <= k < |sqs| && sqs[k] == s && forall l :: k < l < |sqs| ==> !KingAt(pos, sqs[l], player);
    ScanOrderSquares(0);
    ScanOrderCovers(0);
    ScanOrderIncreasing(0);
    forall j | s < j < 128 && OnBoard(j)
      ensures !KingAt(pos, j, player)
    {
      assert j in sqs;
      var l :| 0 <= l < |sqs| && sqs[l] == j;
    }
  }
}

=== FILE: moveobj.dfy ===
/** The `Move` object's `do`/`undo` pair, which edits the position array in
    place and remembers the piece it captured in a closure variable guarded
    by `is_done`.

    `MoveObject` is the reading the rest of the model uses: the captured piece
    lives in its own variable. `MoveAsWritten` keeps the source's closure, in
    which `var to` shares its storage with the `to` parameter, so the captured
    piece overwrites the target index and a second `do` reads the wrong
    slot. */
module MoveObject {
  import opened Wrappers
  import opened Pieces
  import opened Position

  /** `is_done` together with the remembered capture. */
  datatype MoveState = Pending | Applied(captured: Option<Piece>)

  /** The array edit of `do`: the origin's piece is written to the target,
      then the origin is cleared (the en-passant branch never fires, because
      it tests `this.flag` where the constructor set `this.flags`). */
  function Apply(pos: Slots, m: Move): (r: Slots)
    requires InArray(m)
    ensures PieceAt(r, m.from) == None
    ensures m.from != m.to ==> PieceAt(r, m.to) == PieceAt(pos, m.from)
    ensures forall j :: j != m.from && j != m.to ==> PieceAt(r, j) == PieceAt(pos, j)
  {
    Place(Place(pos, m.to, pos[m.from]), m.from, None)
  }

  /** `do(board)`: a no-op once applied; otherwise remember the target's
      piece and apply the move. */
  function Do(pos: Slots, m: Move, st: MoveState): (r: (Slots, MoveState))
    requires InArray(m)
    ensures st.Applied? ==> r == (pos, st)
    ensures st.Pending? ==> r.1 == Applied(PieceAt(pos, m.to)) && r.0 == Apply(pos, m)
  {
    if st.Applied? then (pos, st)
    else (Apply(pos, m), Applied(pos[m.to]))
  }

  /** `undo(board)`: a no-op unless applied; otherwise the target's piece
      goes back to the origin and the remembered capture to the target. */
  function Undo(pos: Slots, m: Move, st: MoveState): (r: (Slots, MoveState))
    requires InArray(m)
    ensures st.Pending? ==> r == (pos, st)
    ensures st.Applied? ==> r.1 == Pending && PieceAt(r.0, m.to) == st.captured
    ensures st.Applied? && m.from != m.to ==> PieceAt(r.0, m.from) == PieceAt(pos, m.to)
    ensures forall j :: j != m.from && j != m.to ==> PieceAt(r.0, j) == PieceAt(pos, j)
  {
    if st.Pending? then (pos, st)
    else (Place(Place(pos, m.from, pos[m.to]), m.to, st.captured), Pending)
  }

  /** `undo` after `do` restores the array exactly, for every move inside the
      array (the origin may even equal the target). */
  lemma DoUndo(pos: Slots, m: Move)
    requires InArray(m)
    ensures var d := Do(pos, m, Pending); Undo(d.0, m, d.1) == (pos, Pending)
  {
    var d := Do(pos, m, Pending);
    var u := Undo(d.0, m, d.1);
    forall j | 0 <= j < SLOTS
      ensures u.0[j] == pos[j]
    {
      assert PieceAt(u.0, j) == PieceAt(pos, j);
    }
    assert u.0 == pos;
  }

  /** A second `do` and an `undo` without a `do` change nothing. */
  lemma Guarded(pos: Slots, m: Move)
    requires InArray(m)
    ensures var d := Do(pos, m, Pending); Do(d.0, m, d.1) == d
    ensures Undo(pos, m, Pending) == (pos, Pending)
  {
  }
}

module MoveAsWritten {
  import opened Wrappers
  import opened Pieces
  import opened Position
  import MoveObject

  /** The closure of the source's `Move`: fresh (the shared `to` variable
      still holds the target index), done, or undone, the last two holding
      whatever `piece_at` returned into that shared variable. */
  datatype Closure = Fresh | Done(slot: Option<Piece>) | Undone(slot: Option<Piece>)

  /** `board.piece_at(to)` with the shared variable: the target index when
      fresh, otherwise the previously captured piece's code used as an index
      (`positions[undefined]` is undefined). */
  function ReadCapture(pos: Slots, m: Move, c: Closure): Option<Piece>
    requires !c.Done?
  {
    if c.Fresh? then PieceAt(pos, m.to)
    else if c.slot.None? then None
    else PieceAt(pos, Code(c.slot.value))
  }

  function Do(pos: Slots, m: Move, c: Closure): (r: (Slots, Closure))
    requires InArray(m)
    ensures c.Done? ==> r == (pos, c)
    ensures !c.Done? ==> r.1 == Done(ReadCapture(pos, m, c))
  {
    if c.Done? then (pos, c)
    else (MoveObject.Apply(pos, m), Done(ReadCapture(pos, m, c)))
  }

  function Undo(pos: Slots, m: Move, c: Closure): (r: (Slots, Closure))
    requires InArray(m)
    ensures !c.Done? ==> r == (pos, c)
    ensures c.Done? ==> r.1 == Undone(c.slot) && PieceAt(r.0, m.to) == c.slot
  {
    if !c.Done? then (pos, c)
    else (Place(Place(pos, m.from, pos[m.to]), m.to, c.slot), Undone(c.slot))
  }

  /** The corrected state a closure stands for. */
  function Corrected(c: Closure): MoveObject.MoveState {
    if c.Done? then MoveObject.Applied(c.slot) else MoveObject.Pending
  }

  /** Both readings move the same pieces on `do`, whatever the closure holds,
      and agree on `undo` whenever the closure's capture is the real one. */
  lemma SamePositions(pos: Slots, m: Move, c: Closure)
    requires InArray(m)
    ensures Do(pos, m, c).0 == MoveObject.Do(pos, m, Corrected(c)).0
    ensures Undo(pos, m, c).0 == MoveObject.Undo(pos, m, Corrected(c)).0
    ensures c.Fresh? ==> Do(pos, m, c).1 == Done(MoveObject.Do(pos, m, Corrected(c)).1.captured)
  {
  }

  /** A fresh move's first `do`/`undo` round trip is exact. */
  lemma FirstRoundTrip(pos: Slots, m: Move)
    requires InArray(m)
    ensures var d := Do(pos, m, Fresh); Undo(d.0, m, d.1).0 == pos
  {
    SamePositions(pos, m, Fresh);
    MoveObject.DoUndo(pos, m);
  }

  /** White rook on a1 (0x00) and black pawn on a2 (0x10), b1 (0x01) empty. */
  function RookTakesPawn(): Slots {
    Place(Place(NewArray(), 0x00, Some(Piece(White, Rook))), 0x10, Some(Piece(Black, Pawn)))
  }

  /** The rook takes the pawn twice with the same move object: the second
      `do` reads `positions[0x01]` (the pawn's code) instead of the target, so
      the second `undo` loses the pawn. */
  lemma SecondRoundTripLosesCapture()
    ensures var pos := RookTakesPawn();
      var m := Move(Piece(White, Rook), 0x00, 0x10, None);
      var d1 := Do(pos, m, Fresh);
      var u1 := Undo(d1.0, m, d1.1);
      var d2 := Do(u1.0, m, u1.1);
      var u2 := Undo(d2.0, m, d2.1);
      u1.0 == pos && u2.0 != pos && u2.0[0x10] == None
  {
    var pos := RookTakesPawn();
    var m := Move(Piece(White, Rook), 0x00, 0x10, None);
    FirstRoundTrip(pos, m);
    var d1 := Do(pos, m, Fresh);
    var u1 := Undo(d1.0, m, d1.1);
    assert d1.1 == Done(Some(Piece(Black, Pawn)));
    assert u1.1 == Undone(Some(Piece(Black, Pawn)));
    assert u1.0[0x01] == None;
    var d2 := Do(u1.0, m, u1.1);
    assert d2.1 == Done(None);
    var u2 := Undo(d2.0, m, d2.1);
    assert u2.0[0x10] == None;
    assert pos[0x10] == Some(Piece(Black, Pawn));
  }

  /** In the corrected reading the same two round trips are both exact. */
  lemma CorrectedSecondRoundTrip(pos: Slots, m: Move)
    requires InArray(m)
    ensures var d1 := MoveObject.Do(pos, m, MoveObject.Pending);
      var u1 := MoveObject.Undo(d1.0, m, d1.1);
      var d2 := MoveObject.Do(u1.0, m, u1.1);
      MoveObject.Undo(d2.0, m, d2.1) == (pos, MoveObject.Pending)
  {
    MoveObject.DoUndo(pos, m);
  }
}

=== FILE: pieces.dfy ===
/** Piece codes: a colour bit (0x80 for WHITE, 0x00 for BLACK) plus one bit
    per kind, and the letter table FEN text uses for them. */
module Pieces {
  import opened Wrappers
  import Text

  datatype Color = Black | White

  const BLACK: int := 0x00
  const WHITE: int := 0x80

  function ColorBit(c: Color): int {
    match c
    case White => WHITE
    case Black => BLACK
  }

  function Opponent(c: Color): Color {
    match c
    case White => Black
    case Black => White
  }

  /** `x ^ 0x80` on any number: take its 32-bit two's-complement form, flip
      bit 7 and keep every other bit of that form. */
  function FlipColorBit(x: int): (r: int)
    ensures -Text.TWO_31 <= r < Text.TWO_31
    ensures r % 256 < 128 <==> x % 256 >= 128
    ensures r / 256 == Text.ToInt32(x) / 256 && r % 128 == x % 128
  {
    Text.ToInt32LowByte(x);
    FlipBit7(Text.ToInt32(x))
  }

  /** Bit 7 flipped on a signed 32-bit value. */
  function FlipBit7(v: int): (r: int)
    requires -Text.TWO_31 <= v < Text.TWO_31
    ensures -Text.TWO_31 <= r < Text.TWO_31
    ensures r % 256 < 128 <==> v % 256 >= 128
    ensures r / 256 == v / 256 && r % 128 == v % 128
  {
    FlipByte(v);
    if v % 256 >= 128 then v - 128 else v + 128
  }

  /** Flipping bit 7 moves a number by 128 within its 256-block. */
  lemma FlipByte(v: int)
    ensures v % 256 >= 128 ==> (v - 128) / 256 == v / 256 && (v - 128) % 256 == v % 256 - 128
    ensures v % 256 < 128 ==> (v + 128) / 256 == v / 256 && (v + 128) % 256 == v % 256 + 128
    ensures (v - 128) % 128 == v % 128 && (v + 128) % 128 == v % 128
  {
    var q, b := v / 256, v % 256;
    assert v == 256 * q + b;
    if b >= 128 {
      assert v - 128 == 256 * q + (b - 128);
    } else {
      assert v + 128 == 256 * q + (b + 128);
    }
    assert v - 128 == 128 * (2 * q - 1) + b;
    assert v + 128 == 128 * (2 * q + 1) + b;
    assert v == 128 * (2 * q) + b;
  }

  /** Bits above 31 are dropped: `(2 ** 31) ^ 0x80` is negative. */
  lemma FlipColorBitWraps()
    ensures FlipColorBit(0x8000_0000) == -0x7FFF_FF80
    ensures FlipColorBit(0x1_0000_0080) == 0
  {
  }

  /** `turn ^= 0x80` swaps the two colours. */
  lemma OpponentIsXor(c: Color)
    ensures ColorBit(Opponent(c)) == FlipColorBit(ColorBit(c))
    ensures Opponent(Opponent(c)) == c && Opponent(c) != c
  {
  }

  datatype Kind = Pawn | Knight | King | Bishop | Rook | Queen

  function KindBits(k: Kind): int {
    match k
    case Pawn => 0x01
    case Knight => 0x02
    case King => 0x04
    case Bishop => 0x08
    case Rook => 0x10
    case Queen => 0x20
  }

  datatype Piece = Piece(color: Color, kind: Kind)

  /** The code `pieces[letter]` holds for this piece. */
  function Code(p: Piece): int {
    ColorBit(p.color) + KindBits(p.kind)
  }

  function LowerLetter(k: Kind): char {
    match k
    case Pawn => 'p'
    case Knight => 'n'
    case King => 'k'
    case Bishop => 'b'
    case Rook => 'r'
    case Queen => 'q'
  }

  /** Black pieces are lowercase, white pieces uppercase. */
  function Letter(p: Piece): char {
    if p.color == White then (LowerLetter(p.kind) as int - 32) as char else LowerLetter(p.kind)
  }

  /** The `pieces` table in its key order. */
  const PieceTable: seq<(char, int)> := [
    ('p', 0x01), ('n', 0x02), ('k', 0x04), ('b', 0x08), ('r', 0x10), ('q', 0x20),
    ('P', 0x81), ('N', 0x82), ('K', 0x84), ('B', 0x88), ('R', 0x90), ('Q', 0xA0)]

  const AllPieces: seq<Piece> := [
    Piece(Black, Pawn), Piece(Black, Knight), Piece(Black, King),
    Piece(Black, Bishop), Piece(Black, Rook), Piece(Black, Queen),
    Piece(White, Pawn), Piece(White, Knight), Piece(White, King),
    Piece(White, Bishop), Piece(White, Rook), Piece(White, Queen)]

  /** `get_color(code)`: `code & 0x80` for a truthy code, undefined for 0. */
  function GetColor(code: int): (r: Option<int>)
    ensures r.Some? ==> r.value == WHITE || r.value == BLACK
    ensures r.Some? ==> (r.value == WHITE <==> code % 256 >= 128)
    ensures r.Some? <==> code != 0
  {
    if code == 0 then None
    else if code % 256 >= 128 then Some(WHITE) else Some(BLACK)
  }

  /** `get_piece(code)`: the first key of `pieces` whose code is `code`. */
  function GetPiece(code: int): (r: Option<char>)
    ensures r.Some? <==> exists k :: 0 <= k < |PieceTable| && PieceTable[k].1 == code
    ensures r.Some? ==> exists k :: 0 <= k < |PieceTable| && PieceTable[k] == (r.value, code)
  {
    FindCode(code, 0)
  }

  function FindCode(code: int, from: nat): (r: Option<char>)
    requires from <= |PieceTable|
    ensures r.Some? <==> exists k :: from <= k < |PieceTable| && PieceTable[k].1 == code
    ensures r.Some? ==> exists k :: from <= k < |PieceTable| && PieceTable[k] == (r.value, code)
    decreases |PieceTable| - from
  {
    if from == |PieceTable| then None
    else if PieceTable[from].1 == code then Some(PieceTable[from].0)
    else FindCode(code, from + 1)
  }

  /** `letter in pieces ? pieces[letter] : undefined`. */
  function LookupLetter(ch: char): (r: Option<int>)
    ensures r.Some? <==> exists k :: 0 <= k < |PieceTable| && PieceTable[k].0 == ch
  {
    FindLetter(ch, 0)
  }

  function FindLetter(ch: char, from: nat): (r: Option<int>)
    requires from <= |PieceTable|
    ensures r.Some? <==> exists k :: from <= k < |PieceTable| && PieceTable[k].0 == ch
    ensures r.Some? ==> exists k :: from <= k < |PieceTable| && PieceTable[k] == (ch, r.value)
    decreases |PieceTable| - from
  {
    if from == |PieceTable| then None
    else if PieceTable[from].0 == ch then Some(PieceTable[from].1)
    else FindLetter(ch, from + 1)
  }

  /** The piece a FEN letter names. */
  function PieceOfLetter(ch: char): Option<Piece> {
    match ch
    case 'p' => Some(Piece(Black, Pawn))
    case 'n' => Some(Piece(Black, Knight))
    case 'k' => Some(Piece(Black, King))
    case 'b' => Some(Piece(Black, Bishop))
    case 'r' => Some(Piece(Black, Rook))
    case 'q' => Some(Piece(Black, Queen))
    case 'P' => Some(Piece(White, Pawn))
    case 'N' => Some(Piece(White, Knight))
    case 'K' => Some(Piece(White, King))
    case 'B' => Some(Piece(White, Bishop))
    case 'R' => Some(Piece(White, Rook))
    case 'Q' => Some(Piece(White, Queen))
    case _ => None
  }

  /** Position of a piece in `AllPieces` (and of its entry in the table). */
  function TableIndex(p: Piece): (k: nat)
    ensures k < 12 && AllPieces[k] == p
  {
    (if p.color == White then 6 else 0) +
    match p.kind
    case Pawn => 0
    case Knight => 1
    case King => 2
    case Bishop => 3
    case Rook => 4
    case Queen => 5
  }

  /** The table and the datatype agree entry by entry. */
  lemma TableIsCodes()
    ensures |PieceTable| == |AllPieces| == 12
    ensures forall k :: 0 <= k < 12 ==> PieceTable[k] == (Letter(AllPieces[k]), Code(AllPieces[k]))
  {
  }

  /** Every uppercase key has the WHITE bit and every lowercase key lacks it. */
  lemma UppercaseIsWhite()
    ensures forall k :: 0 <= k < |PieceTable| ==>
      ('A' <= PieceTable[k].0 <= 'Z' ==> GetColor(PieceTable[k].1) == Some(WHITE)) &&
      ('a' <= PieceTable[k].0 <= 'z' ==> GetColor(PieceTable[k].1) == Some(BLACK))
  {
  }

  /** `get_piece(pieces[key]) == key`: no two keys share a code. */
  lemma GetPieceOfTable(k: int)
    requires 0 <= k < |PieceTable|
    ensures GetPiece(PieceTable[k].1) == Some(PieceTable[k].0)
  {
    FindCodeAt(PieceTable[k].1, 0, k);
  }

  /** The search stops at the first entry holding the code. */
  lemma {:induction false} FindCodeAt(code: int, from: nat, k: int)
    requires from <= k < |PieceTable| && PieceTable[k].1 == code
    requires forall i :: from <= i < k ==> PieceTable[i].1 != code
    ensures FindCode(code, from) == Some(PieceTable[k].0)
    decreases k - from
  {
    if from < k {
      FindCodeAt(code, from + 1, k);
    }
  }

  /** `pieces[key]` for every key of the table: no two keys share a letter. */
  lemma LookupLetterOfTable(k: int)
    requires 0 <= k < |PieceTable|
    ensures LookupLetter(PieceTable[k].0) == Some(PieceTable[k].1)
  {
    FindLetterAt(PieceTable[k].0, 0, k);
  }

  /** The search stops at the first entry holding the letter. */
  lemma {:induction false} FindLetterAt(ch: char, from: nat, k: int)
    requires from <= k < |PieceTable| && PieceTable[k].0 == ch
    requires forall i :: from <= i < k ==> PieceTable[i].0 != ch
    ensures FindLetter(ch, from) == Some(PieceTable[k].1)
    decreases k - from
  {
    if from < k {
      FindLetterAt(ch, from + 1, k);
    }
  }

  /** Colour and kind read back from a piece's code, and its letter names it. */
  lemma CodeReadsBack(p: Piece)
    ensures GetColor(Code(p)) == Some(ColorBit(p.color))
    ensures GetPiece(Code(p)) == Some(Letter(p))
    ensures LookupLetter(Letter(p)) == Some(Code(p))
    ensures PieceOfLetter(Letter(p)) == Some(p)
    ensures Code(p) % 64 == 0x04 <==> p.kind == King
  {
    CodeBits(p);
    var k := TableIndex(p);
    TableIsCodes();
    assert PieceTable[k] == (Letter(p), Code(p));
    GetPieceOfTable(k);
    LookupLetterOfTable(k);
    LetterNamesPiece(p);
  }

  /** The colour bit and the kind bits of a code do not overlap. */
  lemma CodeBits(p: Piece)
    ensures GetColor(Code(p)) == Some(ColorBit(p.color))
    ensures Code(p) % 64 == 0x04 <==> p.kind == King
  {
    match p.kind
    case Pawn =>
    case Knight =>
    case King =>
    case Bishop =>
    case Rook =>
    case Queen =>
  }

  lemma LetterNamesPiece(p: Piece)
    ensures PieceOfLetter(Letter(p)) == Some(p)
  {
    match p.kind
    case Pawn =>
    case Knight =>
    case King =>
    case Bishop =>
    case Rook =>
    case Queen =>
  }

  /** A letter found in `pieces` names exactly one piece. */
  lemma LetterReadsBack(ch: char)
    ensures LookupLetter(ch).Some? <==> PieceOfLetter(ch).Some?
    ensures PieceOfLetter(ch).Some? ==>
      Letter(PieceOfLetter(ch).value) == ch && LookupLetter(ch) == Some(Code(PieceOfLetter(ch).value))
  {
    if PieceOfLetter(ch).Some? {
      LetterOfPieceOfLetter(ch);
      CodeReadsBack(PieceOfLetter(ch).value);
    } else if LookupLetter(ch).Some? {
      var k: int :| 0 <= k < |PieceTable| && PieceTable[k].0 == ch;
      TableEntry(k);
      LetterNamesPiece(AllPieces[k]);
    }
  }

  lemma TableEntry(k: int)
    requires 0 <= k < 12
    ensures PieceTable[k].0 == Letter(AllPieces[k])
  {
    TableIsCodes();
  }

  lemma LetterOfPieceOfLetter(ch: char)
    requires PieceOfLetter(ch).Some?
    ensures Letter(PieceOfLetter(ch).value) == ch
  {
  }
}

=== FILE: position.dfy ===
/** The position store: the 128-slot array, side to move, castling mask,
    en-passant field, the two clocks and the history of snapshots. */
module Position {
  import opened Wrappers
  import opened Pieces
  import opened Squares

  const SLOTS: int := 128

  /** `new Array(128)`: every slot undefined. */
  function NewArray(): (r: seq<Option<Piece>>)
    ensures |r| == 128 && forall i :: 0 <= i < 128 ==> r[i] == None
  {
    seq(128, i => None)
  }

  type Slots = s: seq<Option<Piece>> | |s| == 128 witness NewArray()

  const EmptySlots: Slots := NewArray()

  /** The JavaScript values the `en_passant` field takes: `null` after
      `reset`, `false` after loading "-", or a square index. */
  datatype EnPassant = Null | False | Index(square: int)

  /** Number the field turns into under `&` and `>>` (null and false are 0). */
  function EpNumber(ep: EnPassant): int {
    if ep.Index? then ep.square else 0
  }

  /** `if (this.en_passant)`: null, false and the index 0 are all falsy. */
  predicate EpTruthy(ep: EnPassant) {
    ep.Index? && ep.square != 0
  }

  /** `flags.EN_PASSANT` and `flags.CASTLE`. */
  const EN_PASSANT: int := 0x00
  const CASTLE: int := 0x02

  /** A move's public attributes: the moving piece's code, the two squares and
      the `flags` argument (undefined unless the move is an en-passant
      candidate). */
  datatype Move = Move(piece: Piece, from: int, to: int, flags: Option<int>)

  /** Both squares address the 128-slot array. */
  predicate InArray(m: Move) {
    0 <= m.from < SLOTS && 0 <= m.to < SLOTS
  }

  /** Castling bits (`Math.pow(2, 0)` to `Math.pow(2, 3)`) and the
      `castling_map` key order K, Q, k, q. The mask is only ever combined with
      `|` and `&` and never exceeds 0x0F, so eight bits hold it. */
  const B_00: bv8 := 1
  const B_000: bv8 := 2
  const W_00: bv8 := 4
  const W_000: bv8 := 8
  const CastlingMap: seq<(char, bv8)> := [('K', W_00), ('Q', W_000), ('k', B_00), ('q', B_000)]
  const ALL_CASTLING: bv8 := 0x0F

  /** One `history` entry: the move and a copy of every position field. */
  datatype Snapshot = Snapshot(
    move: Move,
    turn: Color,
    positions: Slots,
    castling: bv8,
    enPassant: EnPassant,
    fullMoves: int,
    halfMoves: int)

  datatype Board = Board(
    positions: Slots,
    turn: Color,
    castling: bv8,
    enPassant: EnPassant,
    halfMoves: int,
    fullMoves: int,
    history: seq<Snapshot>)

  /** `piece_at(i)`: `positions[i]`, which is undefined off the array. */
  function PieceAt(pos: Slots, i: int): (r: Option<Piece>)
    ensures r.Some? ==> 0 <= i < SLOTS
    ensures 0 <= i < SLOTS ==> r == pos[i]
  {
    if 0 <= i < SLOTS then pos[i] else None
  }

  /** `position_piece(piece, index)`: overwrite one slot. */
  function Place(pos: Slots, i: int, v: Option<Piece>): (r: Slots)
    requires 0 <= i < SLOTS
    ensures PieceAt(r, i) == v
    ensures forall j :: j != i ==> PieceAt(r, j) == PieceAt(pos, j)
  {
    pos[i := v]
  }

  /** Square `i` holds a piece of colour `c`: `get_color(piece_at(i)) === c`. */
  predicate OwnedBy(pos: Slots, i: int, c: Color) {
    PieceAt(pos, i).Some? && PieceAt(pos, i).value.color == c
  }

  /** The padding slots of the array hold nothing. */
  predicate PaddingEmpty(pos: Slots) {
    forall i :: 0 <= i < SLOTS && !HasIndex(i) ==> pos[i] == None
  }

  /** An en-passant field that is falsy or a board square off the first and
      last ranks, so that its candidate targets are board squares too. */
  predicate EpInReach(ep: EnPassant) {
    !EpTruthy(ep) || (OnBoard(ep.square) && 16 <= ep.square < 112)
  }

  /** `reset()`: empty array, WHITE to move, all castling rights, no
      en-passant, clocks at zero; the history is kept. */
  function Reset(b: Board): (r: Board)
    ensures r.turn == White && r.castling == ALL_CASTLING && r.enPassant == Null
    ensures r.halfMoves == 0 && r.fullMoves == 0 && r.history == b.history
    ensures forall i :: PieceAt(r.positions, i) == None
  {
    Board(EmptySlots, White, B_00 | B_000 | W_00 | W_000, Null, 0, 0, b.history)
  }
}

=== FILE: squares.dfy ===
/** The 0x88 square index: rank in the high nibble, file in the low nibble,
    so that a single mask test tells on-board indices from the padding. */
module Squares {
  import opened Wrappers
  import Text

  /** `has_index`: `index & 0x88` is zero. JavaScript applies `&` to the
      32-bit two's-complement form of the number; its bits 3 and 7 are the
      bits 3 and 7 of `i % 256` (Dafny's `%` never goes negative). */
  predicate HasIndex(i: int) {
    i % 256 < 128 && i % 16 < 8
  }

  /** The arithmetic reading agrees with the mask on every low byte. */
  lemma HasIndexMask(b: bv8)
    ensures HasIndex(b as int) <==> b & 0x88 == 0
  {
    MaskBits(b);
    LowNibble(b);
  }

  lemma MaskBits(b: bv8)
    ensures (b & 0x88 == 0) <==> (b < 0x80 && (b & 0x0F) < 8)
    ensures (b < 0x80) <==> (b as int) < 128
  {
  }

  lemma LowNibble(b: bv8)
    ensures ((b & 0x0F) < 8) <==> (b as int) % 16 < 8
  {
  }

  /** An index of the 128-slot array that names one of the 64 squares. */
  predicate OnBoard(i: int) {
    0 <= i < 128 && HasIndex(i)
  }

  /** Every index the engine computes lies in -33..160; over any such window
      the mask test is exactly "inside the array and file below 8". */
  lemma HasIndexInReach(i: int)
    requires -128 <= i < 256
    ensures HasIndex(i) <==> OnBoard(i)
    ensures OnBoard(i) <==> 0 <= i < 128 && i % 16 < 8
  {
  }

  /** `get_index(row, column)`: `row << 4 | column`. With the column in a
      nibble and the row small enough that the shift stays in 32 bits, the OR
      is an addition. */
  function GetIndex(row: int, column: int): (r: int)
    requires 0 <= row < 0x800_0000 && 0 <= column < 16
    ensures r >= 0 && r / 16 == row && r % 16 == column
    ensures row < 8 ==> (OnBoard(r) <==> column < 8)
  {
    row * 16 + column
  }

  const Files: string := "abcdefgh"

  /** `s.indexOf(ch)`: first position of `ch`, or -1. */
  function IndexOf(s: string, ch: char): (r: int)
    ensures -1 <= r < |s|
    ensures r >= 0 ==> s[r] == ch && ch !in s[..r]
    ensures r == -1 <==> ch !in s
  {
    if |s| == 0 then -1
    else if s[0] == ch then 0
    else
      var t := IndexOf(s[1..], ch);
      if t == -1 then -1 else (assert s[..t + 1] == [s[0]] + s[1..][..t]; t + 1)
  }

  /** ASCII `toLowerCase` of one character. */
  function LowerChar(ch: char): char {
    if 'A' <= ch <= 'Z' then (ch as int + 32) as char else ch
  }

  predicate IsFileLetter(ch: char) {
    LowerChar(ch) in Files
  }

  /** A string `get_index` reads as a square: a file letter then a rank digit
      1-8 (characters after the second are ignored). */
  predicate IsSquareName(s: string) {
    |s| >= 2 && IsFileLetter(s[0]) && '1' <= s[1] <= '8'
  }

  /** `get_index(name)`: rank digit minus one, file letter's position in
      "abcdefgh". */
  function GetIndexSan(s: string): (r: int)
    requires IsSquareName(s)
    ensures OnBoard(r)
    ensures r / 16 == Text.DigitValue(s[1]) - 1 && Files[r % 16] == LowerChar(s[0])
  {
    GetIndex(Text.DigitValue(s[1]) - 1, IndexOf(Files, LowerChar(s[0])))
  }

  /** `get_san(index)`: file letter `index & 7`, rank `(index >> 4) + 1`,
      both taken on the 32-bit form of the index; undefined when `has_index`
      fails. The arithmetic shift is a floor division by 16. */
  function GetSan(i: int): (r: Option<string>)
    ensures r.Some? <==> HasIndex(i)
  {
    if HasIndex(i) then Some([Files[i % 8]] + Text.IntToString(Text.ToInt32(i) / 16 + 1)) else None
  }

  /** Bits above 31 are dropped: `get_san(2 ** 32)` is "a1". */
  lemma GetSanWraps()
    ensures GetSan(0x1_0000_0000) == Some("a1")
  {
    assert Text.ToInt32(0x1_0000_0000) == 0;
    assert HasIndex(0x1_0000_0000) && 0x1_0000_0000 % 8 == 0;
    assert Text.NatToString(1) == "1" && Text.IntToString(1) == "1";
    assert [Files[0]] + "1" == "a1";
  }

  /** `get_index(get_san(i)) == i` for every on-board index. */
  lemma SanRoundTrip(i: int)
    requires OnBoard(i)
    ensures GetSan(i).Some? && |GetSan(i).value| == 2 && IsSquareName(GetSan(i).value)
    ensures GetIndexSan(GetSan(i).value) == i
  {
    var q, f := i / 16, i % 16;
    SanOfSquare(i, q, f);
    var name := GetSan(i).value;
    FileLetterIndex(f);
    assert GetIndexSan(name) == GetIndex(q, f);
  }

  /** On the low byte of an index, `index & 7` is the index modulo 8 and
      `index >> 4` is the index divided by 16: the file and rank that
      `get_san` writes. */
  lemma FileOfIndex(b: bv8)
    ensures (b & 7) as int == (b as int) % 8
    ensures (b >> 4) as int == (b as int) / 16
  {
  }

  /** An index `16 * q + f` with `f < 8` has file `f` and rank `q`. */
  lemma IndexParts(i: int, q: int, f: int)
    requires i == 16 * q + f && 0 <= f < 8
    ensures i % 8 == f && i % 16 == f && i / 16 == q
  {
    assert i == 8 * (2 * q) + f;
  }

  /** Each file letter is lower case and found at its own position. */
  lemma FileLetterIndex(f: int)
    requires 0 <= f < 8
    ensures LowerChar(Files[f]) == Files[f] && IndexOf(Files, Files[f]) == f
  {
    var r := IndexOf(Files, Files[f]);
    assert Files[f] in Files;
    FilesDistinct(r, f);
  }

  lemma FilesDistinct(j: int, k: int)
    requires 0 <= j < 8 && 0 <= k < 8
    ensures Files[j] == Files[k] ==> j == k
    ensures 'a' <= Files[j] <= 'h'
  {
  }

  /** The name of a square is a file letter and a rank digit, no space. */
  lemma SanChars(i: int)
    requires OnBoard(i)
    ensures GetSan(i).Some? && |GetSan(i).value| == 2
    ensures GetSan(i).value[0] in Files && '1' <= GetSan(i).value[1] <= '8'
    ensures ' ' !in GetSan(i).value
  {
    var name := GetSan(i).value;
    assert name == [Files[i % 8], Text.DigitChar(i / 16 + 1)];
  }

  /** `get_san(get_index(name))` gives the name back, lower-cased and cut to
      two characters. */
  lemma NameRoundTrip(s: string)
    requires IsSquareName(s)
    ensures GetSan(GetIndexSan(s)) == Some([LowerChar(s[0]), s[1]])
  {
    var i := GetIndexSan(s);
    var q, f := i / 16, i % 16;
    assert Text.DigitChar(q + 1) == s[1] && Files[f] == LowerChar(s[0]);
    SanOfSquare(i, q, f);
  }

  /** The name `get_san` gives the square on rank `q` and file `f`. */
  lemma SanOfSquare(i: int, q: int, f: int)
    requires 0 <= q < 8 && 0 <= f < 8 && i == 16 * q + f
    ensures GetSan(i) == Some([Files[f], Text.DigitChar(q + 1)])
  {
    IndexParts(i, q, f);
    assert 0 <= i < 128 && i % 256 == i && HasIndex(i);
    assert Text.NatToString(q + 1) == [Text.DigitChar(q + 1)];
    assert Text.IntToString(q + 1) == [Text.DigitChar(q + 1)];
    assert Text.ToInt32(i) == i;
    assert GetSan(i) == Some([Files[i % 8]] + Text.IntToString(i / 16 + 1));
    assert [Files[f]] + [Text.DigitChar(q + 1)] == [Files[f], Text.DigitChar(q + 1)];
  }

  /** The squares visited by the scan in `moves()`: at an off-board index the
      loop adds 7 and `continue`s, which adds 1 more, jumping to the next rank. */
  function ScanOrder(i: int): seq<int>
    requires 0 <= i && i % 16 <= 8
    decreases 128 - i
  {
    if i >= 128 then []
    else if !HasIndex(i) then
      assert (i + 8) % 16 == 0;
      ScanOrder(i + 8)
    else
      assert (i + 1) % 16 == i % 16 + 1;
      [i] + ScanOrder(i + 1)
  }

  /** The scan from `i` visits only board squares at or above `i`. */
  lemma {:induction false} ScanOrderSquares(i: int)
    requires 0 <= i && i % 16 <= 8
    ensures forall k :: 0 <= k < |ScanOrder(i)| ==> OnBoard(ScanOrder(i)[k]) && i <= ScanOrder(i)[k]
    decreases 128 - i
  {
    if i < 128 {
      ScanStep(i);
      if !HasIndex(i) {
        ScanOrderSquares(i + 8);
      } else {
        ScanOrderSquares(i + 1);
      }
    }
  }

  /** The scan from `i` visits every board square from `i` on. */
  lemma {:induction false} ScanOrderCovers(i: int)
    requires 0 <= i && i % 16 <= 8
    ensures forall j :: i <= j < 128 && OnBoard(j) ==> j in ScanOrder(i)
    decreases 128 - i
  {
    if i < 128 {
      ScanStep(i);
      if !HasIndex(i) {
        RankPadding(i);
        ScanOrderCovers(i + 8);
      } else {
        ScanOrderCovers(i + 1);
      }
    }
  }

  /** The scan visits squares in increasing order. */
  lemma {:induction false} ScanOrderIncreasing(i: int)
    requires 0 <= i && i % 16 <= 8
    ensures forall k, l :: 0 <= k < l < |ScanOrder(i)| ==> ScanOrder(i)[k] < ScanOrder(i)[l]
    decreases 128 - i
  {
    if i < 128 {
      ScanStep(i);
      if !HasIndex(i) {
        ScanOrderIncreasing(i + 8);
      } else {
        ScanOrderIncreasing(i + 1);
        ScanOrderSquares(i + 1);
      }
    }
  }

  /** One step of the scan below index 128: a padding index (file 8) jumps to
      the next rank, a board square is visited and the scan moves on by one. */
  lemma ScanStep(i: int)
    requires 0 <= i < 128 && i % 16 <= 8
    ensures !HasIndex(i) ==> i % 16 == 8 && (i + 8) % 16 == 0 && ScanOrder(i) == ScanOrder(i + 8)
    ensures HasIndex(i) ==> (i + 1) % 16 == i % 16 + 1 && ScanOrder(i) == [i] + ScanOrder(i + 1)
  {
    assert i % 256 == i;
  }

  /** The eight indices from file 8 of a rank onwards are padding. */
  lemma RankPadding(i: int)
    requires 0 <= i < 128 && i % 16 == 8
    ensures forall j :: i <= j < i + 8 ==> !HasIndex(j)
    ensures (i + 8) % 16 == 0
  {
    var q := i / 16;
    assert i == 16 * q + 8;
    forall j | i <= j < i + 8
      ensures !HasIndex(j)
    {
      assert j == 16 * q + (j - 16 * q);
      assert j % 16 == j - 16 * q;
    }
  }

  /** From file `f` of rank `q` on, the scan visits the rest of that rank
      and every rank above it. */
  lemma {:induction false} ScanOrderLength(i: int, q: int, f: int)
    requires i == 16 * q + f && 0 <= q <= 8 && 0 <= f <= 8 && (q == 8 ==> f == 0)
    requires i % 16 == f
    ensures |ScanOrder(i)| == 8 * (8 - q) - f
    decreases 8 - q, 8 - f
  {
    if q < 8 {
      if f == 8 {
        var j := i + 8;
        assert j % 16 == 0 && |ScanOrder(i)| == |ScanOrder(j)| by {
          SplitIndex(j, q + 1, 0);
          ScanStep(i);
        }
        ScanOrderLength(j, q + 1, 0);
      } else {
        var j := i + 1;
        assert j % 16 == f + 1 && |ScanOrder(i)| == 1 + |ScanOrder(j)| by {
          SplitIndex(j, q, f + 1);
          ScanStep(i);
        }
        ScanOrderLength(j, q, f + 1);
      }
    }
  }



  /** Rank and file of an index given as `16 * q + f`. */
  lemma SplitIndex(i: int, q: int, f: int)
    requires i == 16 * q + f && 0 <= f < 16
    ensures i / 16 == q && i % 16 == f
  {
  }

  /** The mask picks exactly 64 of the 128 slots: the scan visits each of them
      once, in increasing order. */
  lemma SixtyFourSquares()
    ensures |ScanOrder(0)| == 64
    ensures forall j :: 0 <= j < 128 ==> (OnBoard(j) <==> j in ScanOrder(0))
    ensures forall k, l :: 0 <= k < l < |ScanOrder(0)| ==> ScanOrder(0)[k] < ScanOrder(0)[l]
  {
    ScanOrderLength(0, 0, 0);
    ScanOrderSquares(0);
    ScanOrderCovers(0);
    ScanOrderIncreasing(0);
  }
}

=== FILE: text.dfy ===
/** The few pieces of JavaScript string and number behaviour the engine
    relies on: `split`, `join`, number-to-string, `parseInt`, and the 32-bit
    conversion its bit operators apply. */
module Text {
  import opened Wrappers

  const TWO_32: int := 0x1_0000_0000
  const TWO_31: int := 0x8000_0000

  /** ToInt32: the bit operators `&`, `|`, `^`, `>>` work on the number taken
      modulo 2^32 as a signed 32-bit value. */
  function ToInt32(x: int): (r: int)
    ensures -TWO_31 <= r < TWO_31
    ensures (x - r) % TWO_32 == 0
    ensures -TWO_31 <= x < TWO_31 ==> r == x
  {
    var m := x % TWO_32;
    if m >= TWO_31 then m - TWO_32 else m
  }

  /** The conversion keeps the low byte. */
  lemma ToInt32LowByte(x: int)
    ensures ToInt32(x) % 256 == x % 256
    ensures ToInt32(x) % 128 == x % 128
  {
    var m := x % TWO_32;
    var a := x / TWO_32;
    assert x == TWO_32 * a + m;
    ModShift(0x100_0000 * a, m);
    assert x == 256 * (0x100_0000 * a) + m;
    if m >= TWO_31 {
      ModShift(-0x100_0000, m);
      assert m - TWO_32 == 256 * -0x100_0000 + m;
    }
  }

  lemma ModShift(k: int, m: int)
    ensures (256 * k + m) % 256 == m % 256
    ensures (256 * k + m) % 128 == m % 128
  {
    var q := m / 256;
    assert m == 256 * q + m % 256;
    assert 256 * k + m == 256 * (k + q) + m % 256;
    var p := m / 128;
    assert m == 128 * p + m % 128;
    assert 256 * k + m == 128 * (2 * k + p) + m % 128;
  }

  /** `s.split(c)`: the pieces between separators, empty pieces included. */
  function Split(s: string, c: char): (r: seq<string>)
    ensures |r| >= 1
    ensures forall i :: 0 <= i < |r| ==> c !in r[i]
    ensures Join(r, c) == s
    decreases |s|
  {
    if |s| == 0 then [""]
    else if s[0] == c then [""] + Split(s[1..], c)
    else
      var t := Split(s[1..], c);
      JoinHead(t, c);
      JoinHead([[s[0]] + t[0]] + t[1..], c);
      [[s[0]] + t[0]] + t[1..]
  }

  /** `fields.join(c)`. */
  function Join(fields: seq<string>, c: char): string
  {
    if |fields| == 0 then ""
    else if |fields| == 1 then fields[0]
    else fields[0] + [c] + Join(fields[1..], c)
  }

  lemma JoinHead(fields: seq<string>, c: char)
    requires |fields| >= 1
    ensures Join(fields, c) == fields[0] + (if |fields| == 1 then "" else [c] + Join(fields[1..], c))
  {
  }

  lemma {:induction false} SplitWithoutSeparator(a: string, c: char)
    requires c !in a
    ensures Split(a, c) == [a]
    decreases |a|
  {
    if |a| > 0 {
      SplitWithoutSeparator(a[1..], c);
    }
  }

  lemma {:induction false} SplitAtFirstSeparator(a: string, rest: string, c: char)
    requires c !in a
    ensures Split(a + [c] + rest, c) == [a] + Split(rest, c)
    decreases |a|
  {
    if |a| == 0 {
      assert a + [c] + rest == [c] + rest;
      assert ([c] + rest)[1..] == rest;
    } else {
      assert (a + [c] + rest)[1..] == a[1..] + [c] + rest;
      SplitAtFirstSeparator(a[1..], rest, c);
      assert [a[0]] + a[1..] == a;
    }
  }

  /** Splitting a join gives the fields back when no field holds the separator. */
  lemma {:induction false} SplitJoin(fields: seq<string>, c: char)
    requires |fields| >= 1
    requires forall i :: 0 <= i < |fields| ==> c !in fields[i]
    ensures Split(Join(fields, c), c) == fields
    decreases |fields|
  {
    if |fields| == 1 {
      SplitWithoutSeparator(fields[0], c);
    } else {
      SplitJoin(fields[1..], c);
      SplitAtFirstSeparator(fields[0], Join(fields[1..], c), c);
      assert [fields[0]] + fields[1..] == fields;
    }
  }

  /** A character that is not the separator and occurs in no field does not
      occur in the join. */
  lemma {:induction false} JoinAvoids(fields: seq<string>, c: char, x: char)
    requires x != c
    requires forall i :: 0 <= i < |fields| ==> x !in fields[i]
    ensures x !in Join(fields, c)
    decreases |fields|
  {
    if |fields| > 1 {
      JoinAvoids(fields[1..], c, x);
    }
  }

  predicate IsDigit(ch: char) {
    '0' <= ch <= '9'
  }

  function DigitValue(ch: char): nat
    requires IsDigit(ch)
  {
    ch as int - '0' as int
  }

  function DigitChar(d: nat): (ch: char)
    requires d < 10
    ensures IsDigit(ch) && DigitValue(ch) == d
  {
    ('0' as int + d) as char
  }

  /** `String(n)` for a non-negative integer: decimal, no leading zero. */
  function NatToString(n: nat): (r: string)
    ensures |r| >= 1
    ensures forall i :: 0 <= i < |r| ==> IsDigit(r[i])
    ensures |r| > 1 ==> r[0] != '0'
    ensures DigitsValue(r) == n
    decreases n
  {
    if n < 10 then [DigitChar(n)]
    else
      var r := NatToString(n / 10) + [DigitChar(n % 10)];
      assert r[..|r| - 1] == NatToString(n / 10);
      r
  }

  /** `String(i)` for any integer. */
  function IntToString(i: int): string
  {
    if i < 0 then "-" + NatToString(-i) else NatToString(i)
  }

  /** Value of a string of decimal digits, most significant first. */
  function DigitsValue(s: string): nat
    requires forall i :: 0 <= i < |s| ==> IsDigit(s[i])
  {
    if |s| == 0 then 0
    else DigitsValue(s[..|s| - 1]) * 10 + DigitValue(s[|s| - 1])
  }

  /** The maximal prefix of decimal digits, the part `parseInt` reads when
      the text does not start with a hex prefix. */
  function LeadingDigits(s: string): (r: string)
    ensures |r| <= |s| && r == s[..|r|]
    ensures forall i :: 0 <= i < |r| ==> IsDigit(s[i])
    ensures |r| < |s| ==> !IsDigit(s[|r|])
  {
    if |s| == 0 || !IsDigit(s[0]) then ""
    else [s[0]] + LeadingDigits(s[1..])
  }

  predicate IsHexDigit(ch: char) {
    IsDigit(ch) || 'a' <= ch <= 'f' || 'A' <= ch <= 'F'
  }

  function HexDigitValue(ch: char): (v: nat)
    requires IsHexDigit(ch)
    ensures v < 16
    ensures IsDigit(ch) ==> v == DigitValue(ch)
  {
    if IsDigit(ch) then DigitValue(ch)
    else if 'a' <= ch <= 'f' then ch as int - 'a' as int + 10
    else ch as int - 'A' as int + 10
  }

  /** Value of a string of hex digits, most significant first. */
  function HexValue(s: string): nat
    requires forall i :: 0 <= i < |s| ==> IsHexDigit(s[i])
  {
    if |s| == 0 then 0
    else HexValue(s[..|s| - 1]) * 16 + HexDigitValue(s[|s| - 1])
  }

  /** The maximal prefix of hex digits. */
  function LeadingHexDigits(s: string): (r: string)
    ensures |r| <= |s| && r == s[..|r|]
    ensures forall i :: 0 <= i < |r| ==> IsHexDigit(s[i])
    ensures |r| < |s| ==> !IsHexDigit(s[|r|])
  {
    if |s| == 0 || !IsHexDigit(s[0]) then ""
    else [s[0]] + LeadingHexDigits(s[1..])
  }

  /** Without a radix, `parseInt` reads text that starts with "0x" or "0X"
      in base 16. */
  predicate HasHexPrefix(s: string) {
    |s| >= 2 && s[0] == '0' && (s[1] == 'x' || s[1] == 'X')
  }

  /** The characters `parseInt` skips before the number: ECMAScript's white
      space and line terminators. */
  predicate IsJsSpace(ch: char) {
    var c := ch as int;
    (0x09 <= c <= 0x0D) || c == 0x20 || c == 0xA0 || c == 0x1680 ||
    (0x2000 <= c <= 0x200A) || c == 0x2028 || c == 0x2029 || c == 0x202F ||
    c == 0x205F || c == 0x3000 || c == 0xFEFF
  }

  /** The text after its leading white space. */
  function TrimStart(s: string): (r: string)
    ensures |r| <= |s| && r == s[|s| - |r|..]
    ensures forall i :: 0 <= i < |s| - |r| ==> IsJsSpace(s[i])
    ensures |r| > 0 ==> !IsJsSpace(r[0])
  {
    if |s| > 0 && IsJsSpace(s[0]) then TrimStart(s[1..]) else s
  }

  /** The digits after the sign: hex digits after a "0x" prefix, decimal
      digits otherwise; NaN (`None`) when there is no digit. */
  function ParseUnsigned(u: string): (r: Option<nat>)
    ensures r.None? <==> if HasHexPrefix(u) then LeadingHexDigits(u[2..]) == "" else LeadingDigits(u) == ""
  {
    if HasHexPrefix(u) then
      var h := LeadingHexDigits(u[2..]);
      if h == "" then None else Some(HexValue(h))
    else
      var d := LeadingDigits(u);
      if d == "" then None else Some(DigitsValue(d))
  }

  /** `parseInt(s)` without a radix: skip leading white space, take one
      optional sign, then read the digits. NaN is `None`. "-0" reads as 0
      here and as -0 in JavaScript; the two print alike and count alike. */
  function ParseInt(s: string): Option<int> {
    ParseSigned(TrimStart(s))
  }

  /** Text that starts with a digit has no white space or sign to skip: it
      is NaN exactly for a bare hex prefix, and never negative. */
  lemma ParseIntDigitStart(s: string)
    requires |s| > 0 && IsDigit(s[0])
    ensures TrimStart(s) == s
    ensures ParseInt(s).None? <==> HasHexPrefix(s) && LeadingHexDigits(s[2..]) == ""
    ensures ParseInt(s).Some? ==> ParseInt(s).value >= 0
    ensures !HasHexPrefix(s) ==> ParseInt(s) == Some(DigitsValue(LeadingDigits(s)))
  {
    assert !IsJsSpace(s[0]);
    assert TrimStart(s) == s;
    assert s[0] != '-' && s[0] != '+';
    assert ParseInt(s) == ParseSigned(s);
    var u := ParseUnsigned(s);
    assert ParseSigned(s) == if u.None? then None else Some(u.value as int);
    assert !HasHexPrefix(s) ==> LeadingDigits(s) != "";
  }

  /** One optional sign, then the digits. */
  function ParseSigned(t: string): Option<int> {
    if |t| > 0 && (t[0] == '-' || t[0] == '+') then
      match ParseUnsigned(t[1..])
      case None => None
      case Some(v) => if t[0] == '-' then Some(0 - v) else Some(v)
    else
      match ParseUnsigned(t)
      case None => None
      case Some(v) => Some(v)
  }

  /** Text without any decimal digit reads as NaN. */
  lemma ParseIntNoDigit(s: string)
    ensures (forall i :: 0 <= i < |s| ==> !IsDigit(s[i])) ==> ParseInt(s).None?
  {
    var t := TrimStart(s);
    var k := |s| - |t|;
    if forall i :: 0 <= i < |s| ==> !IsDigit(s[i]) {
      if |t| > 0 {
        assert t[0] == s[k];
        UnsignedNoDigit(t);
        if |t| > 1 {
          assert t[1..][0] == s[k + 1];
        }
        UnsignedNoDigit(t[1..]);
      }
    }
  }

  lemma UnsignedNoDigit(u: string)
    requires |u| > 0 ==> !IsDigit(u[0])
    ensures ParseUnsigned(u).None?
  {
  }

  /** A sign before a digit: "-" negates the value and "+" keeps it. */
  lemma ParseIntSign(t: string)
    requires |t| > 0 && IsDigit(t[0])
    ensures ParseInt(t).Some? ==> ParseInt("-" + t) == Some(0 - ParseInt(t).value)
    ensures ParseInt("+" + t) == ParseInt(t)
  {
    ParseIntDigitStart(t);
    assert ParseInt(t) == ParseSigned(t);
    SignSkipped('-', t);
    SignSkipped('+', t);
    SignedValue(t);
  }

  /** A sign is not white space, so nothing before it is skipped. */
  lemma SignSkipped(c: char, t: string)
    requires c == '-' || c == '+'
    ensures [c] + t == (if c == '-' then "-" else "+") + t
    ensures ParseInt([c] + t) == ParseSigned([c] + t)
  {
    var m := [c] + t;
    assert m[0] == c && !IsJsSpace(c);
    assert TrimStart(m) == m;
  }

  lemma SignedValue(t: string)
    requires |t| > 0 && IsDigit(t[0])
    ensures var u := ParseUnsigned(t);
      ParseSigned(t) == (if u.None? then None else Some(u.value as int)) &&
      ParseSigned("-" + t) == (if u.None? then None else Some(-(u.value as int))) &&
      ParseSigned("+" + t) == ParseSigned(t)
  {
    assert ("-" + t)[0] == '-' && ("-" + t)[1..] == t;
    assert ("+" + t)[0] == '+' && ("+" + t)[1..] == t;
  }

  /** Leading white space changes nothing. */
  lemma ParseIntSkipsSpace(ws: string, s: string)
    requires forall i :: 0 <= i < |ws| ==> IsJsSpace(ws[i])
    requires |s| > 0 ==> !IsJsSpace(s[0])
    ensures TrimStart(ws + s) == s
    ensures ParseInt(ws + s) == ParseInt(s)
  {
    TrimStartPrefix(ws, s);
  }

  lemma {:induction false} TrimStartPrefix(ws: string, s: string)
    requires forall i :: 0 <= i < |ws| ==> IsJsSpace(ws[i])
    requires |s| > 0 ==> !IsJsSpace(s[0])
    ensures TrimStart(ws + s) == s
    decreases |ws|
  {
    if |ws| == 0 {
      assert ws + s == s;
    } else {
      assert (ws + s)[0] == ws[0];
      assert (ws + s)[1..] == ws[1..] + s;
      TrimStartPrefix(ws[1..], s);
    }
  }

  /** `parseInt` stops at the first character that is not a digit: a run of
      decimal digits followed by anything else reads as the run's value,
      unless the run is a lone "0" and the next character turns it into a
      hex prefix. */
  lemma {:induction false} ParseIntDecimal(t: string, rest: string)
    requires |t| > 0 && forall i :: 0 <= i < |t| ==> IsDigit(t[i])
    requires |rest| > 0 ==> !IsDigit(rest[0])
    requires !(t == "0" && |rest| > 0 && (rest[0] == 'x' || rest[0] == 'X'))
    ensures (t + rest)[0] == t[0]
    ensures ParseInt(t + rest) == Some(DigitsValue(t))
  {
    var s := t + rest;
    assert s[0] == t[0];
    assert !HasHexPrefix(s) by {
      if |t| >= 2 {
        assert s[1] == t[1] && IsDigit(t[1]);
      } else if |rest| > 0 {
        assert s[1] == rest[0];
        assert t[0] == '0' ==> t == "0";
      }
    }
    ParseIntDigitStart(s);
    LeadingDigitsOfPrefix(t, rest);
  }

  /** After a "0x" prefix, `parseInt` reads the hex digits that follow, and
      NaN when there are none. */
  lemma ParseIntHexPrefix(s: string)
    requires HasHexPrefix(s)
    ensures var h := LeadingHexDigits(s[2..]);
      ParseInt(s) == if h == "" then None else Some(HexValue(h) as int)
  {
    ParseIntDigitStart(s);
    assert ParseInt(s) == ParseSigned(s);
  }

  /** The hex branch: "0x10" reads as 16, "0X1f" as 31, and a bare "0x" as
      NaN. */
  lemma ParseIntHex()
    ensures ParseInt("0x10") == Some(16)
    ensures ParseInt("0X1f") == Some(31)
    ensures ParseInt("0x") == None
  {
    ParseIntHexPrefix("0x10");
    assert "0x10"[2..] == "10";
    HexTen();
    ParseIntHexPrefix("0X1f");
    assert "0X1f"[2..] == "1f";
    HexThirtyOne();
    ParseIntHexPrefix("0x");
    assert "0x"[2..] == "";
  }

  lemma HexTen()
    ensures LeadingHexDigits("10") == "10" && HexValue("10") == 16
  {
    assert "10"[1..] == "0" && "0"[1..] == "" && LeadingHexDigits("0") == "0";
    assert "10"[..1] == "1" && "1"[..0] == "" && HexValue("1") == 1;
  }

  lemma HexThirtyOne()
    ensures LeadingHexDigits("1f") == "1f" && HexValue("1f") == 31
  {
    assert "1f"[1..] == "f" && "f"[1..] == "" && LeadingHexDigits("f") == "f";
    assert "1f"[..1] == "1" && "1"[..0] == "" && HexValue("1") == 1;
  }

  lemma {:induction false} LeadingDigitsOfPrefix(t: string, rest: string)
    requires forall i :: 0 <= i < |t| ==> IsDigit(t[i])
    requires |rest| > 0 ==> !IsDigit(rest[0])
    ensures LeadingDigits(t + rest) == t
    decreases |t|
  {
    if |t| == 0 {
      assert t + rest == rest;
    } else {
      assert (t + rest)[1..] == t[1..] + rest;
      LeadingDigitsOfPrefix(t[1..], rest);
      assert [t[0]] + t[1..] == t;
    }
  }

  /** JavaScript numbers hold every integer below 2^53 exactly; `String(n)`
      writes such an integer in plain decimal. */
  const MAX_SAFE: int := 0x20_0000_0000_0000

  /** `parseInt(String(n)) == n` for the integers a JavaScript number holds
      exactly. */
  lemma ParseIntNatToString(n: nat)
    requires n < MAX_SAFE
    ensures ParseInt(NatToString(n)) == Some(n)
  {
    ParseIntDecimal(NatToString(n), "");
    assert NatToString(n) + "" == NatToString(n);
  }

  /** The same for negative integers, whose text starts with a minus sign. */
  lemma ParseIntIntToString(n: int)
    requires -MAX_SAFE < n < MAX_SAFE
    ensures ParseInt(IntToString(n)) == Some(n)
  {
    if n >= 0 {
      ParseIntNatToString(n);
    } else {
      var t := NatToString(-n);
      ParseIntNatToString(-n);
      ParseIntSign(t);
    }
  }
}

=== FILE: wrappers.dfy ===
/** Optional values and results used throughout the model: JS `undefined`
    becomes `None`, a thrown `Error` becomes `Err`. */
module Wrappers {

  datatype Option<+T> = None | Some(value: T)

  datatype Result<+T, +E> = Ok(value: T) | Err(error: E)
}
